=== FILE: README.md ===
# CheckHotSegment code-cache classifier, modelled in Dafny

This project models the logic of the HotSpot regression test
`CheckHotSegment`. The test starts a VM with an extra-hot code heap and
captures the output of the diagnostic commands `Compiler.codecache` and
`Compiler.codelist`. It folds that output into a small segment table, the
test's inner class `CodeHeap`, and then checks which list each compiled
method landed in.

The model has three layers:

- **The segment table** (`CodeHeap`). It holds four inclusive address
  ranges (hot, "c1", "c2", non-method) and four lists of method names.
  - `AddSegment` follows the label if-chain, including the `CodeCache` and
    `ExtraHotCache` aliases.
  - `AddMethod` tries the ranges in the fixed order hot, c2, c1,
    non-method.
  - `SegmentName` and its corrected version `SegmentLabel` give the label
    for an address.
  - The lists are crossed, as in the code: the c2 range (announced as
    "profiled nmethods") feeds `c1SegmentMethods`, and the c1 range feeds
    `c2SegmentMethods`.
- **The line parser** (`OutputParser`, over `JavaStrings` and
  `JavaNumbers`). It is the loop of `runVM`, stated with the Java library
  calls it makes: `split` with its trailing-empty rule, `indexOf`,
  `substring`, `replace`, `Long.parseLong(s, 16)`, `Integer.valueOf` and
  `split("\\s+")`.
  - A header line is followed by a bounds line.
  - A record line that matches the method pattern is parsed, and only
    level-4 records are classified.
  - An exception inside the loop ends parsing and keeps the table built so
    far (`Stopped`).
  - A level-4 record outside every range is the uncaught `AssertionError`
    (`NotInAnySegment`).
- **The placement checks** (`Placement`). These are
  `checkJavaMethodsBelongsToHotSegmentOnly` and the inline checks of
  `testEmptyHotSegment` and `testSmallHotSegment`. Each is fail-fast
  (`reportError` throws), so each yields the first violation it meets.

Two modules state what the VM prints:

- `DcmdFormat` writes out segment headers, bounds lines and method records.
  It proves that the parser reads back exactly the printed parts
  (round trips).
- `HotSegmentTests` joins everything into one theorem, `OutputRoundTrip`:
  running the loop over printed output is the same as announcing the
  segments and placing the methods one by one. It also has the test methods
  themselves and concrete scenarios.

Some facts about the code that shape the model:

- The checks stop at the first violation, because `reportError`
  (lines 282-285) throws.
- The single `catch` sits outside the loop (line 203), so a malformed line
  inside the loop ends parsing with the table read so far.
- Addresses are Java `long`s read by `Long.parseLong` (lines 176-177 and
  188). Ranges include both ends (lines 104-107).
- The spillover check of `testSmallHotSegment` (lines 270-279) asks for a
  `java` name in `c2SegmentMethods`, which is the list fed by the
  non-profiled bounds.

## Model

| member | source | states |
|---|---|---|
| CodeHeap.AddSegment | test/hotspot/jtreg/compiler/codecache/CheckHotSegment.java:70-100 | A recognised label overwrites exactly its own bounds pair. The other three pairs and all four lists are unchanged. An unrecognised label changes nothing. |
| CodeHeap.LabelTable | test/hotspot/jtreg/compiler/codecache/CheckHotSegment.java:70-96 | The label chain read backwards: the hot pair is reached by "extra-hot" and "ExtraHotCache" only, the c1 pair by "non-profiled nmethods" and "CodeCache" only, the c2 pair by "profiled nmethods" only, the non-method pair by "non-nmethods" only. |
| CodeHeap.AddSegmentLastWins | test/hotspot/jtreg/compiler/codecache/CheckHotSegment.java:70-96 | Two announcements of the same pair (including an alias and its canonical label) leave the later bounds and no trace of the earlier. |
| CodeHeap.AddSegmentCommutes | test/hotspot/jtreg/compiler/codecache/CheckHotSegment.java:70-96 | Announcements of different pairs commute. |
| CodeHeap.RangeOf | test/hotspot/jtreg/compiler/codecache/CheckHotSegment.java:102-110 | The claiming pair contains the address. Every pair tested before it (order hot, c2, c1, non-method) does not. None is returned exactly when no inclusive range contains the address. |
| CodeHeap.AddMethod | test/hotspot/jtreg/compiler/codecache/CheckHotSegment.java:101-114 | Returns true iff some inclusive range contains the address. Then exactly the list fed by the first such pair grows, by the name appended at its end, and every other list and all bounds are unchanged. On false the table is untouched. |
| CodeHeap.CrossedLists | test/hotspot/jtreg/compiler/codecache/CheckHotSegment.java:79-107 | A method inside bounds announced as "profiled nmethods" lands in `c1SegmentMethods`. One inside the "non-profiled nmethods" bounds lands in `c2SegmentMethods`. |
| CodeHeap.EmptyHeapClaimsOnlyZero | test/hotspot/jtreg/compiler/codecache/CheckHotSegment.java:56-63 | With all bounds at their initial 0, address 0 and only address 0 is accepted, and it lands in the hot list. |
| CodeHeap.SegmentName | test/hotspot/jtreg/compiler/codecache/CheckHotSegment.java:115-121 | The answer is one of the four canonical labels or "UNKNOWN", never an alias. "UNKNOWN" exactly when no range contains the address. Otherwise the label names the list the method would be appended to (the crossed one), not the pair it was announced into. |
| CodeHeap.SegmentNameMatchesAddMethod | test/hotspot/jtreg/compiler/codecache/CheckHotSegment.java:101-121 | `getSegmentName` answers "UNKNOWN" iff `addMethod` refuses. Otherwise the list its label maps to is the list `addMethod` appends the name to. |
| CodeHeap.SegmentNameSwapsLabels | test/hotspot/jtreg/compiler/codecache/CheckHotSegment.java:115-121 | Concrete instance: bounds announced as "profiled nmethods" are reported as "non-profiled nmethods", and the reverse. |
| CodeHeap.SegmentLabel | test/hotspot/jtreg/compiler/codecache/CheckHotSegment.java:115-121 | Corrected labels. The answer is one of the four canonical labels or "UNKNOWN". It maps back through the announcement chain to exactly the pair that claims the address; "UNKNOWN" when none does. |
| CodeHeap.SegmentLabelNamesAnnouncement | test/hotspot/jtreg/compiler/codecache/CheckHotSegment.java:70-121 | With corrected labels, an address inside freshly announced bounds, and outside every pair tested earlier, is reported under the label it was announced with. |
| JavaStrings.IndexOf | test/hotspot/jtreg/compiler/codecache/CheckHotSegment.java:168-172 | `indexOf` gives -1 exactly when the pattern never occurs. Otherwise it gives an occurrence with no occurrence before it. |
| JavaStrings.Replace | test/hotspot/jtreg/compiler/codecache/CheckHotSegment.java:176-177 | `replace` of a string in which the target never occurs gives the string back; this is all its own contract states. What removing the `0x` prefix of a printed address gives is stated by `DcmdFormat.AddressRoundTrip`. |
| JavaStrings.Split | test/hotspot/jtreg/compiler/codecache/CheckHotSegment.java:167 | `split` gives the pieces between occurrences of the separator, minus the trailing empty pieces only: when the separator occurs, the last piece returned is never empty. A string without the separator splits to itself. |
| JavaStrings.JoinPieces | test/hotspot/jtreg/compiler/codecache/CheckHotSegment.java:173 | The pieces between separators, joined with the separator, give back the string. |
| JavaStrings.SplitJoin | test/hotspot/jtreg/compiler/codecache/CheckHotSegment.java:173 | Splitting a join of parts free of the separator, whose last part is non-empty, gives back the parts. |
| JavaStrings.SplitWhitespace | test/hotspot/jtreg/compiler/codecache/CheckHotSegment.java:191 | `split("\\s+")` is the pieces between maximal whitespace runs, minus trailing empty pieces: when whitespace occurs, the last piece returned is never empty. The pieces hold no whitespace, and together they hold exactly the non-whitespace characters in order. |
| JavaStrings.WsRuns | test/hotspot/jtreg/compiler/codecache/CheckHotSegment.java:191 | The separators `split("\\s+")` removes: one fewer than the pieces of `WsPieces`, each a non-empty run of whitespace only. |
| JavaStrings.WsPiecesRebuild | test/hotspot/jtreg/compiler/codecache/CheckHotSegment.java:191 | Where the whitespace split breaks: the line is exactly its pieces woven with the maximal whitespace runs between them, and only the first piece (after a leading run) and the last piece (after a trailing run) can be empty. So `fields[1]` of any line is the text between its first and second whitespace runs. |
| JavaStrings.WsPiecesUnique | test/hotspot/jtreg/compiler/codecache/CheckHotSegment.java:191 | The converse: any way of writing the line as whitespace-free pieces woven with non-empty whitespace runs, whose inner pieces are non-empty, is the one the whitespace split finds. |
| JavaNumbers.ParseSigned | test/hotspot/jtreg/compiler/codecache/CheckHotSegment.java:176-192 | Succeeds exactly for an optional `-` or `+` followed by at least one digit of the radix whose signed value fits the target type, and then returns that signed value. The empty string, a lone sign, any non-digit and an out-of-range value are refused, which is where Java throws `NumberFormatException`. |
| JavaNumbers.ParseLong | test/hotspot/jtreg/compiler/codecache/CheckHotSegment.java:176-177 | `Long.parseLong(s, radix)` succeeds exactly for a signed numeral of the radix whose value fits a `long`, and returns that value. |
| JavaNumbers.ParseInt | test/hotspot/jtreg/compiler/codecache/CheckHotSegment.java:192 | `Integer.valueOf(s)` succeeds exactly for a signed decimal numeral whose value fits an `int`, and returns that value. |
| JavaNumbers.ParseLongOfPadded | test/hotspot/jtreg/compiler/codecache/CheckHotSegment.java:176-177 | Zero-padded digits of any non-negative `long` parse back to it with `Long.parseLong`. |
| JavaNumbers.ParseIntOfDigits | test/hotspot/jtreg/compiler/codecache/CheckHotSegment.java:192 | The decimal digits of a non-negative `int` parse back with `Integer.valueOf`. |
| OutputParser.HeaderName | test/hotspot/jtreg/compiler/codecache/CheckHotSegment.java:167-168 | With more than one `'`-piece the name is the text between the first two quotes. Otherwise it is the prefix before the first `": "`, and it is present whenever `": "` occurs. |
| OutputParser.IsHeaderLine | test/hotspot/jtreg/compiler/codecache/CheckHotSegment.java:166 | Definition of the header test: the line starts with `CodeHeap '` and holds no line terminator (the `.*` of the regex), or it contains `Cache: size=` anywhere. |
| OutputParser.ParseBounds | test/hotspot/jtreg/compiler/codecache/CheckHotSegment.java:171-177 | The bounds line after a header gives a result only when a `]` follows the first `[`. Its own contract states only that; the text between the brackets is split at `, ` and the first and third addresses are read with the `0x` removed, as `DcmdFormat.BoundsLineRoundTrip` states for printed bounds lines. |
| OutputParser.NotMethodLine | test/hotspot/jtreg/compiler/codecache/CheckHotSegment.java:181-185 | A line in which no digit is followed by a space cannot match the method pattern. |
| OutputParser.IsMethodLine | test/hotspot/jtreg/compiler/codecache/CheckHotSegment.java:181-185 | Definition of the method pattern: no line terminator, and somewhere a digit run, spaces, a digit run, spaces, a digit run, followed later by one of the characters `0`, `x`, `.`, `*` (the class `[0x.*]`). |
| OutputParser.ThreeNumbersMatch | test/hotspot/jtreg/compiler/codecache/CheckHotSegment.java:181-185 | Three space-separated numbers followed later by one of `0x.*`, on a line without line terminators, match the pattern. |
| OutputParser.ParseMethodRecord | test/hotspot/jtreg/compiler/codecache/CheckHotSegment.java:186-192 | An extracted name contains neither `(` nor a space, and the level is an `int`. |
| OutputParser.HeaderRule | test/hotspot/jtreg/compiler/codecache/CheckHotSegment.java:166-178 | Succeeds exactly when the header yields a segment name, a following line exists and its bounds parse. It then stores exactly `addSegment(name, start, end)` with those bounds, and never touches the method lists. |
| OutputParser.Classify | test/hotspot/jtreg/compiler/codecache/CheckHotSegment.java:192-199 | Levels other than 4 leave the table unchanged. A level-4 record is placed by `addMethod`. The `AssertionError` arises exactly for a level-4 record that `addMethod` refuses, and it carries that record's name. |
| OutputParser.RecordRule | test/hotspot/jtreg/compiler/codecache/CheckHotSegment.java:181-201 | A line that fails the pattern changes nothing. A matching line stops the loop, with the table unchanged, exactly when it cannot be parsed. A parsed record is classified. An escaped error names a classified record of this line. |
| OutputParser.Step | test/hotspot/jtreg/compiler/codecache/CheckHotSegment.java:160-201 | A non-header line is handled by the record rule alone, consuming one line. On a header, a failed two-line rule stops the loop. A successful one is followed by the record rule on the same header line, with two lines consumed, since there is no `continue`. Lists only grow. |
| OutputParser.Run | test/hotspot/jtreg/compiler/codecache/CheckHotSegment.java:159-205 | Unless the `AssertionError` escapes, every list of the returned table extends the list it started from. |
| OutputParser.RunAppend | test/hotspot/jtreg/compiler/codecache/CheckHotSegment.java:159-202 | Parsing is incremental: output that was read to its end leaves the table from which the rest of the output is read. |
| OutputParser.RunVM | test/hotspot/jtreg/compiler/codecache/CheckHotSegment.java:144-146 | Definition: `runVM` reads the captured output starting from a fresh `CodeHeap`, all bounds zero and all lists empty. |
| OutputParser.UnplacedIsFinal | test/hotspot/jtreg/compiler/codecache/CheckHotSegment.java:196-203 | Once the `AssertionError` has escaped, more output changes nothing: the catch does not take it. |
| OutputParser.UnplacedHasWitness | test/hotspot/jtreg/compiler/codecache/CheckHotSegment.java:185-199 | The escaped error names a line of the output that matches the pattern and parses to a level-4 record of that name. |
| OutputParser.RunSkips | test/hotspot/jtreg/compiler/codecache/CheckHotSegment.java:166-185 | A line that is neither a header nor a method record is skipped. |
| OutputParser.RunSkipsAll | test/hotspot/jtreg/compiler/codecache/CheckHotSegment.java:159-185 | Any run of lines that neither rule acts on is skipped as a whole. |
| OutputParser.RunStopsAtMalformedRecord | test/hotspot/jtreg/compiler/codecache/CheckHotSegment.java:181-205 | A non-header line that matches the method pattern but cannot be parsed ends the loop with the table built so far, whatever follows. |
| OutputParser.RunStopsAtBadHeader | test/hotspot/jtreg/compiler/codecache/CheckHotSegment.java:166-178 | A header whose name, following line or bounds cannot be read ends the loop the same way. |
| Placement.First | test/hotspot/jtreg/compiler/codecache/CheckHotSegment.java:219-227 | None exactly when no entry is (or is not) a `java` name. Otherwise the result is such an entry, and no earlier entry is. |
| Placement.Message | test/hotspot/jtreg/compiler/codecache/CheckHotSegment.java:199-279 | Definition: the exact text `reportError` or the `AssertionError` carries for each kind of violation. |
| Placement.CheckJavaMethodsInHotOnly | test/hotspot/jtreg/compiler/codecache/CheckHotSegment.java:215-228 | Passes iff the hot list is non-empty, all hot names start with `java`, and no `java` name is in the c1 or c2 list. Otherwise it reports the first violation in source order, with the first offending name. |
| Placement.CheckIgnoresNonMethodList | test/hotspot/jtreg/compiler/codecache/CheckHotSegment.java:215-228 | The non-method list has no influence on the check. |
| Placement.CheckEmptyHot | test/hotspot/jtreg/compiler/codecache/CheckHotSegment.java:259-264 | Passes iff the hot list is empty; otherwise "hot segment must be empty!". |
| Placement.CheckSmallHot | test/hotspot/jtreg/compiler/codecache/CheckHotSegment.java:267-280 | Passes iff the hot list is non-empty and some `java` name is in `c2SegmentMethods`. It reports the empty hot list first and the missing spillover second. |
| Placement.ChecksExclusive | test/hotspot/jtreg/compiler/codecache/CheckHotSegment.java:215-280 | No table passes both the empty-hot check and the small-hot check, nor both the empty-hot check and the java-only check. |
| Placement.SpilloverViolatesJavaOnly | test/hotspot/jtreg/compiler/codecache/CheckHotSegment.java:215-280 | Every table that passes the small-hot check fails the java-only check. |
| DcmdFormat.AddressRoundTrip | test/hotspot/jtreg/compiler/codecache/CheckHotSegment.java:176-177 | A printed address `0x%016x`, with `0x` removed, parses back to the address. |
| DcmdFormat.SegmentHeaderRoundTrip | test/hotspot/jtreg/compiler/codecache/CheckHotSegment.java:166-168 | A `CodeHeap '<name>': ...` header is recognised, and its name is read back exactly. |
| DcmdFormat.CacheHeaderRoundTrip | test/hotspot/jtreg/compiler/codecache/CheckHotSegment.java:166-168 | A `<name>Cache: size=...` header of the unsegmented cache is recognised, and its name is read back exactly. |
| DcmdFormat.SegmentHeaderNotRecord | test/hotspot/jtreg/compiler/codecache/CheckHotSegment.java:181-185 | A segment header whose texts have no digit before a space is not taken for a method record. |
| DcmdFormat.CacheHeaderNotRecord | test/hotspot/jtreg/compiler/codecache/CheckHotSegment.java:181-185 | The same for an unsegmented cache header. |
| DcmdFormat.BoundsLineRoundTrip | test/hotspot/jtreg/compiler/codecache/CheckHotSegment.java:169-177 | A printed `bounds [start, top, end]` line yields exactly start and end. The middle address is ignored. |
| DcmdFormat.MethodLineFields | test/hotspot/jtreg/compiler/codecache/CheckHotSegment.java:189 | `split(" ")` of a printed record gives back its eight fields. |
| DcmdFormat.MethodLineEntry | test/hotspot/jtreg/compiler/codecache/CheckHotSegment.java:186-188 | The hex text after the first `[0x` up to the next `,` parses to the entry address. |
| DcmdFormat.MethodLineName | test/hotspot/jtreg/compiler/codecache/CheckHotSegment.java:189-190 | The fourth field, cut before its first `(`, is the method name without its signature. |
| DcmdFormat.MethodLineLevel | test/hotspot/jtreg/compiler/codecache/CheckHotSegment.java:191-192 | The second whitespace-separated field is the printed compilation level. |
| DcmdFormat.MethodLineRoundTrip | test/hotspot/jtreg/compiler/codecache/CheckHotSegment.java:186-192 | A printed record parses to exactly its entry address, name and level. Signatures with array types such as `([B)I` are covered; the method text only has to avoid `[0x`, spaces, colons and line terminators. |
| DcmdFormat.MethodLineMatches | test/hotspot/jtreg/compiler/codecache/CheckHotSegment.java:181-185 | A printed record matches the method pattern. |
| DcmdFormat.MethodLineNotHeader | test/hotspot/jtreg/compiler/codecache/CheckHotSegment.java:166 | A printed record is not taken for a header. |
| HotSegmentTests.RunSegment | test/hotspot/jtreg/compiler/codecache/CheckHotSegment.java:159-185 | A segment's header, its bounds line (at any indentation without `[`) and the skippable lines after it announce that segment and nothing else, whatever follows them. |
| HotSegmentTests.RunHeader | test/hotspot/jtreg/compiler/codecache/CheckHotSegment.java:166-178 | A printed header and its bounds line perform exactly one `addSegment` with the printed name and bounds. |
| HotSegmentTests.RunRecord | test/hotspot/jtreg/compiler/codecache/CheckHotSegment.java:185-200 | A printed record below level 4 is skipped. A level-4 record is appended by `addMethod`, or raises the error when it is refused. |
| HotSegmentTests.RunSegments | test/hotspot/jtreg/compiler/codecache/CheckHotSegment.java:159-179 | Reading the printed segment part announces every segment in order. |
| HotSegmentTests.RunRecords | test/hotspot/jtreg/compiler/codecache/CheckHotSegment.java:181-201 | Reading the printed record part places the level-4 methods in order, stopping at the first one that is refused. |
| HotSegmentTests.OutputRoundTrip | test/hotspot/jtreg/compiler/codecache/CheckHotSegment.java:144-206 | `runVM` on the printed output equals the reference semantics: announce the segments, then place the methods. Each segment may be followed by any lines that neither rule acts on, such as the `total_blobs=...` summary. |
| HotSegmentTests.OutputAfterPreamble | test/hotspot/jtreg/compiler/codecache/CheckHotSegment.java:159-206 | Lines that neither rule acts on, printed before the first segment, leave `runVM` equal to the same reference semantics. |
| HotSegmentTests.PlaceNeverStops | test/hotspot/jtreg/compiler/codecache/CheckHotSegment.java:159-205 | The reference placement of printed records either reads them all or ends with the `AssertionError`; it never takes the `catch` path. |
| HotSegmentTests.OutputBeforeTrailer | test/hotspot/jtreg/compiler/codecache/CheckHotSegment.java:159-206 | Lines that neither rule acts on, printed after the last record, leave `runVM` equal to the same reference semantics. |
| HotSegmentTests.AnnounceKeepsMethods | test/hotspot/jtreg/compiler/codecache/CheckHotSegment.java:70-100 | Announcing segments changes no method list. |
| HotSegmentTests.HotOnlyTest | test/hotspot/jtreg/compiler/codecache/CheckHotSegment.java:230-256 | `testCommandFile`, `testDirectivesFile`, `testSegmentedNonTiered` and `testNonsegmented` pass iff no record escaped and the table keeps `java` names in the hot list only. The escaped error is reported iff it happened. |
| HotSegmentTests.EmptyHotTest | test/hotspot/jtreg/compiler/codecache/CheckHotSegment.java:258-264 | `testEmptyHotSegment` passes iff no record escaped and the hot list is empty. |
| HotSegmentTests.SmallHotTest | test/hotspot/jtreg/compiler/codecache/CheckHotSegment.java:266-280 | `testSmallHotSegment` passes iff no record escaped, the hot list is non-empty and a `java` name is in `c2SegmentMethods`. |
| HotSegmentTests.UnclassifiedNamesARecord | test/hotspot/jtreg/compiler/codecache/CheckHotSegment.java:193-199 | A test failing with the `AssertionError` names a level-4 record present in the output. |
| HotSegmentTests.TestsOnTable | test/hotspot/jtreg/compiler/codecache/CheckHotSegment.java:203-205 | Output read to its end, and output whose reading the `catch` ended early, are both judged by the checks on the table built so far, reporting the same violation as the check does on that table. |
| HotSegmentTests.TestsOnUnplaced | test/hotspot/jtreg/compiler/codecache/CheckHotSegment.java:196-199 | An escaped record fails every test with that record's name. |
| HotSegmentTests.AnnounceHotAndNonProfiled | test/hotspot/jtreg/compiler/codecache/CheckHotSegment.java:70-78 | The printed "extra-hot" and "non-profiled nmethods" segments give a table with exactly the hot and c1 bounds set. |
| HotSegmentTests.AnnounceNonsegmented | test/hotspot/jtreg/compiler/codecache/CheckHotSegment.java:87-96 | The printed `ExtraHotCache` and `CodeCache` segments give the same table, through the aliases. |
| HotSegmentTests.JavaMethodInHotPasses | test/hotspot/jtreg/compiler/codecache/CheckHotSegment.java:230-242 | A `java` method inside the hot bounds makes the java-only tests pass. |
| HotSegmentTests.PlaceHotThenC1 | test/hotspot/jtreg/compiler/codecache/CheckHotSegment.java:101-107 | A method in the hot range and then one in the c1 range only: the first goes to the hot list, the second to `c2SegmentMethods`. |
| HotSegmentTests.SpilloverIsReportedAsC2 | test/hotspot/jtreg/compiler/codecache/CheckHotSegment.java:266-280 | A `java` method spilled into the non-profiled bounds makes `testSmallHotSegment` pass. On the same output the java-only check fails with "c2 segment contains wrong name". |
| HotSegmentTests.NonsegmentedJavaInHotPasses | test/hotspot/jtreg/compiler/codecache/CheckHotSegment.java:251-256 | Unsegmented cache: a `java` method in the `ExtraHotCache` bounds plus a non-`java` method in the `CodeCache` bounds pass the java-only check. |
| HotSegmentTests.NothingCompiledLeavesHotEmpty | test/hotspot/jtreg/compiler/codecache/CheckHotSegment.java:215-272 | With no level-4 record, the java-only check reports "hot segment is empty!", the empty-hot test passes, and the small-hot test reports the empty hot list. |
| HotSegmentTests.PlaceStopsAtUnplaced | test/hotspot/jtreg/compiler/codecache/CheckHotSegment.java:195-199 | A level-4 method outside every range ends placement with its name, whatever follows. |
| HotSegmentTests.UnplacedRecordEndsEveryTest | test/hotspot/jtreg/compiler/codecache/CheckHotSegment.java:193-199 | Such a record in the printed output fails all three tests with the `AssertionError` for its name. |

## Left out

- Launching the VM (`ProcessBuilder`, `OutputAnalyzer`, lines 144-158) is left out. The captured output is a parameter, `seq<string>`.
- Writing the command and directives files (`prepareCmdFile`, lines 124-142) is left out: it is file I/O.
- The `jcmd` calls over JMX in `main` (lines 209-213) are left out: they are foreign calls.
- TestNG annotations and all printing are left out: `UNEXPECTED SEGMENT` at line 98, the bounds echo at 170, the output dump at 197, and the message at 283.
- The effect of each test's VM options on what the VM prints is not modelled. The options only shape the output, which is an input here. So the four java-only tests share one model, `HotSegmentTests.HotOnlyTest`.
- The unused `isHot` local at line 194 is left out. It uses a half-open range and affects nothing.
- `Character.digit` accepts non-ASCII digits in Java. `JavaNumbers.ParseSigned` accepts ASCII digits and letters only.
- Java exception types are not distinguished. Every exception the `catch` at line 203 takes is one `Stopped` result.
- The regex `^CodeHeap '.*` is modelled as the prefix `CodeHeap '` plus "no line terminator". The method pattern is reduced to its witnesses (`OutputParser.IsMethodLine`). The separators `'`, `, ` and ` ` are regexes that match only themselves, so they are treated as literals.
- JavaStrings.Replace: its own contract covers only a target that never occurs. The one call shape the code uses, removing `0x` from a printed address, is stated by `DcmdFormat.AddressRoundTrip`.
- OutputParser.ParseBounds: its own contract states only that a `]` was found. What it extracts is stated for printed bounds lines by `DcmdFormat.BoundsLineRoundTrip`, not for arbitrary text.
- OutputParser.ParseMethodRecord: its own contract states the shape of the name and the range of the level. The extraction itself is stated for printed records by `DcmdFormat.MethodLineRoundTrip`.
- The round trips and scenarios cover only output whose texts are well formed. Names have no quotes. Headers have no digit followed by a space. Bounds-line indentation has no `[`. Addresses fit a `long`. Addresses are printed as `0x%016x`.
- DcmdFormat.MethodLineRoundTrip: requires the name and signature to hold no `[0x`, no space, no colon and no line terminator. The first two are the code's own limits: line 186 would read the address after an earlier `[0x`, and line 189 would take a different fourth field. The colon keeps a record from containing `Cache: size=`, which would make it a header.
- HotSegmentTests.OutputRoundTrip: covers output laid out as the two commands print it, with all segments first and then all records. Skippable lines may follow any segment's bounds line. Such lines before the first header are covered by `HotSegmentTests.OutputAfterPreamble`. Such lines after the last record are covered by `HotSegmentTests.OutputBeforeTrailer`. Lines mixed in among the records are not covered by these theorems, although `OutputParser.RunSkipsAll` shows that they are skipped wherever they stand.

## Findings

| source | as written | input that shows it | evidently intended | confidence | as-written member | corrected member |
|---|---|---|---|---|---|---|
| test/hotspot/jtreg/compiler/codecache/CheckHotSegment.java:117-118 | `getSegmentName` returns "non-profiled nmethods" for the pair set by "profiled nmethods", and the reverse | `addSegment("profiled nmethods", 0x1000, 0x2000)` then `getSegmentName(0x1800)` gives "non-profiled nmethods" | the label under which the containing bounds were announced | low (the label matches the crossed method-list names, so the swap may be deliberate); not executed | CodeHeap.SegmentNameSwapsLabels | CodeHeap.SegmentLabelNamesAnnouncement |

=== FILE: code_heap.dfy ===
/** The segment table of the hot-segment placement test: four pairs of
    address bounds (hot, "c1", "c2", non-method) and four lists of method
    names, with the three operations of the test's inner class `CodeHeap`. */
module CodeHeap {
  import opened Options
  import opened JavaNumbers

  /** Segment labels as `Compiler.codecache` prints them. */
  const SEGMENT_HOT: string := "extra-hot"
  const SEGMENT_NONPROF: string := "non-profiled nmethods"
  const SEGMENT_PROFILED: string := "profiled nmethods"
  const SEGMENT_NONNMETHOD: string := "non-nmethods"
  /** Labels of the unsegmented code cache. */
  const CODE_CACHE: string := "CodeCache"
  const EXTRA_HOT_CACHE: string := "ExtraHotCache"
  /** What `getSegmentName` answers for an address outside every range. */
  const UNKNOWN: string := "UNKNOWN"

  /** Names a bounds pair and, separately, a method list; both are named
      after the fields of the source (`c1SegmentStart`, `c1SegmentMethods`, ...). */
  datatype Slot = Hot | C1 | C2 | NonMethod

  /** An inclusive address range `[start, end]`; empty when `start > end`. */
  datatype Bounds = Bounds(start: Long, end: Long) {
    predicate Contains(addr: int) {
      start <= addr && addr <= end
    }
  }

  datatype Heap = Heap(
    hot: Bounds, c1: Bounds, c2: Bounds, nonMethod: Bounds,
    hotMethods: seq<string>, c1Methods: seq<string>,
    c2Methods: seq<string>, nonMethodMethods: seq<string>)

  /** A fresh table: every bound is 0, so every range is `[0, 0]`. */
  const Empty: Heap := Heap(
    Bounds(0, 0), Bounds(0, 0), Bounds(0, 0), Bounds(0, 0), [], [], [], [])

  function BoundsOf(h: Heap, s: Slot): Bounds {
    match s
    case Hot => h.hot
    case C1 => h.c1
    case C2 => h.c2
    case NonMethod => h.nonMethod
  }

  function MethodsOf(h: Heap, s: Slot): seq<string> {
    match s
    case Hot => h.hotMethods
    case C1 => h.c1Methods
    case C2 => h.c2Methods
    case NonMethod => h.nonMethodMethods
  }

  /** Two tables with the same bounds and lists are the same table. */
  lemma HeapExtensionality(h: Heap, g: Heap)
    requires forall s :: BoundsOf(h, s) == BoundsOf(g, s)
    requires forall s :: MethodsOf(h, s) == MethodsOf(g, s)
    ensures h == g
  {
    assert BoundsOf(h, Hot) == BoundsOf(g, Hot) && BoundsOf(h, C1) == BoundsOf(g, C1);
    assert BoundsOf(h, C2) == BoundsOf(g, C2) && BoundsOf(h, NonMethod) == BoundsOf(g, NonMethod);
    assert MethodsOf(h, Hot) == MethodsOf(g, Hot) && MethodsOf(h, C1) == MethodsOf(g, C1);
    assert MethodsOf(h, C2) == MethodsOf(g, C2) && MethodsOf(h, NonMethod) == MethodsOf(g, NonMethod);
  }

  /** The bounds pair `addSegment` stores a name's bounds in, following its
      if-chain; `None` for a name it only reports as unexpected. */
  function SlotForLabel(name: string): Option<Slot> {
    if name == SEGMENT_HOT then Some(Hot)
    else if name == SEGMENT_NONPROF then Some(C1)
    else if name == SEGMENT_PROFILED then Some(C2)
    else if name == SEGMENT_NONNMETHOD then Some(NonMethod)
    else if name == CODE_CACHE then Some(C1)
    else if name == EXTRA_HOT_CACHE then Some(Hot)
    else None
  }

  /** The alias table read backwards: exactly which labels reach each pair. */
  lemma LabelTable(name: string)
    ensures SlotForLabel(name) == Some(Hot) <==> name == SEGMENT_HOT || name == EXTRA_HOT_CACHE
    ensures SlotForLabel(name) == Some(C1) <==> name == SEGMENT_NONPROF || name == CODE_CACHE
    ensures SlotForLabel(name) == Some(C2) <==> name == SEGMENT_PROFILED
    ensures SlotForLabel(name) == Some(NonMethod) <==> name == SEGMENT_NONNMETHOD
  {
  }

  /** `addSegment(name, start, end)`: a recognised name overwrites its own
      bounds pair and nothing else; any other name changes nothing. */
  function AddSegment(h: Heap, name: string, start: Long, end: Long): (r: Heap)
    ensures SlotForLabel(name).None? ==> r == h
    ensures SlotForLabel(name).Some? ==> BoundsOf(r, SlotForLabel(name).value) == Bounds(start, end)
    ensures forall s :: SlotForLabel(name) != Some(s) ==> BoundsOf(r, s) == BoundsOf(h, s)
    ensures forall s :: MethodsOf(r, s) == MethodsOf(h, s)
  {
    if name == SEGMENT_HOT then h.(hot := Bounds(start, end))
    else if name == SEGMENT_NONPROF then h.(c1 := Bounds(start, end))
    else if name == SEGMENT_PROFILED then h.(c2 := Bounds(start, end))
    else if name == SEGMENT_NONNMETHOD then h.(nonMethod := Bounds(start, end))
    else if name == CODE_CACHE then h.(c1 := Bounds(start, end))
    else if name == EXTRA_HOT_CACHE then h.(hot := Bounds(start, end))
    else h
  }

  /** Announcing the same pair twice: the later bounds win, the earlier leave no trace. */
  lemma AddSegmentLastWins(h: Heap, l1: string, s1: Long, e1: Long, l2: string, s2: Long, e2: Long)
    requires SlotForLabel(l1).Some? && SlotForLabel(l1) == SlotForLabel(l2)
    ensures AddSegment(AddSegment(h, l1, s1, e1), l2, s2, e2) == AddSegment(h, l2, s2, e2)
  {
    HeapExtensionality(AddSegment(AddSegment(h, l1, s1, e1), l2, s2, e2), AddSegment(h, l2, s2, e2));
  }

  /** Announcements of different pairs do not interfere: their order is irrelevant. */
  lemma AddSegmentCommutes(h: Heap, l1: string, s1: Long, e1: Long, l2: string, s2: Long, e2: Long)
    requires SlotForLabel(l1) != SlotForLabel(l2)
    ensures AddSegment(AddSegment(h, l1, s1, e1), l2, s2, e2)
         == AddSegment(AddSegment(h, l2, s2, e2), l1, s1, e1)
  {
    HeapExtensionality(AddSegment(AddSegment(h, l1, s1, e1), l2, s2, e2),
                       AddSegment(AddSegment(h, l2, s2, e2), l1, s1, e1));
  }

  /** Position of a pair in the order `addMethod` and `getSegmentName` test
      them: hot, then the c2 pair, then the c1 pair, then non-method. */
  function Rank(s: Slot): nat {
    match s
    case Hot => 0
    case C2 => 1
    case C1 => 2
    case NonMethod => 3
  }

  /** The bounds pair that claims `addr`: the first pair in test order whose
      inclusive range contains it. */
  function RangeOf(h: Heap, addr: int): (r: Option<Slot>)
    ensures r.None? <==> forall s :: !BoundsOf(h, s).Contains(addr)
    ensures r.Some? ==> BoundsOf(h, r.value).Contains(addr)
    ensures r.Some? ==> forall s :: Rank(s) < Rank(r.value) ==> !BoundsOf(h, s).Contains(addr)
  {
    assert BoundsOf(h, Hot) == h.hot && BoundsOf(h, C2) == h.c2;
    assert BoundsOf(h, C1) == h.c1 && BoundsOf(h, NonMethod) == h.nonMethod;
    if h.hot.Contains(addr) then Some(Hot)
    else if h.c2.Contains(addr) then Some(C2)
    else if h.c1.Contains(addr) then Some(C1)
    else if h.nonMethod.Contains(addr) then Some(NonMethod)
    else None
  }

  /** The list that receives a method found in the bounds pair `s`: the c2
      pair feeds `c1SegmentMethods` and the c1 pair feeds `c2SegmentMethods`. */
  function ListFor(s: Slot): Slot {
    match s
    case C1 => C2
    case C2 => C1
    case _ => s
  }

  /** `addMethod`'s boolean result together with the table after the call. */
  datatype Added = Added(ok: bool, heap: Heap)

  /** `addMethod(addr, name)`: succeeds exactly when some range contains
      `addr`; then `name` is appended to the one list fed by the winning pair
      and nothing else changes; otherwise the table is untouched. */
  function AddMethod(h: Heap, addr: Long, name: string): (r: Added)
    ensures r.ok <==> exists s :: BoundsOf(h, s).Contains(addr)
    ensures !r.ok ==> r.heap == h
    ensures forall s :: BoundsOf(r.heap, s) == BoundsOf(h, s)
    ensures r.ok ==> RangeOf(h, addr).Some?
    ensures r.ok ==> MethodsOf(r.heap, ListFor(RangeOf(h, addr).value))
                     == MethodsOf(h, ListFor(RangeOf(h, addr).value)) + [name]
    ensures r.ok ==> forall s :: s != ListFor(RangeOf(h, addr).value) ==> MethodsOf(r.heap, s) == MethodsOf(h, s)
  {
    assert BoundsOf(h, Hot) == h.hot && BoundsOf(h, C2) == h.c2;
    assert BoundsOf(h, C1) == h.c1 && BoundsOf(h, NonMethod) == h.nonMethod;
    if h.hot.Contains(addr) then Added(true, h.(hotMethods := h.hotMethods + [name]))
    else if h.c2.Contains(addr) then Added(true, h.(c1Methods := h.c1Methods + [name]))
    else if h.c1.Contains(addr) then Added(true, h.(c2Methods := h.c2Methods + [name]))
    else if h.nonMethod.Contains(addr) then Added(true, h.(nonMethodMethods := h.nonMethodMethods + [name]))
    else Added(false, h)
  }

  /** The crossed lists: a method inside the bounds announced as "profiled
      nmethods" (and outside the hot range) lands in `c1SegmentMethods`, one
      inside the "non-profiled nmethods" bounds (and outside the hot and
      profiled ranges) lands in `c2SegmentMethods`. */
  lemma CrossedLists(h: Heap, start: Long, end: Long, addr: Long, name: string)
    requires start <= addr <= end
    ensures !h.hot.Contains(addr) ==>
      AddMethod(AddSegment(h, SEGMENT_PROFILED, start, end), addr, name).heap.c1Methods == h.c1Methods + [name]
    ensures !h.hot.Contains(addr) && !h.c2.Contains(addr) ==>
      AddMethod(AddSegment(h, SEGMENT_NONPROF, start, end), addr, name).heap.c2Methods == h.c2Methods + [name]
  {
  }

  /** `getSegmentName(addr)`, as written: the name tied to the winning pair,
      with the two middle labels swapped relative to `addSegment`. */
  function SegmentName(h: Heap, addr: int): (r: string)
    ensures r in {SEGMENT_HOT, SEGMENT_NONPROF, SEGMENT_PROFILED, SEGMENT_NONNMETHOD, UNKNOWN}
    ensures r == UNKNOWN <==> RangeOf(h, addr).None?
    ensures r != UNKNOWN ==> SlotForLabel(r) == Some(ListFor(RangeOf(h, addr).value))
  {
    if h.hot.Contains(addr) then SEGMENT_HOT
    else if h.c2.Contains(addr) then SEGMENT_NONPROF
    else if h.c1.Contains(addr) then SEGMENT_PROFILED
    else if h.nonMethod.Contains(addr) then SEGMENT_NONNMETHOD
    else UNKNOWN
  }

  /** `getSegmentName` and `addMethod` agree: "UNKNOWN" exactly when the
      method would be refused, and otherwise the name names the list the
      method is appended to. */
  lemma SegmentNameMatchesAddMethod(h: Heap, addr: Long, name: string)
    ensures SegmentName(h, addr) == UNKNOWN <==> !AddMethod(h, addr, name).ok
    ensures SegmentName(h, addr) != UNKNOWN ==>
      var l := SlotForLabel(SegmentName(h, addr)).value;
      MethodsOf(AddMethod(h, addr, name).heap, l) == MethodsOf(h, l) + [name]
  {
  }

  /** The labels `getSegmentName` evidently means to return: the name whose
      announcement set the bounds pair that contains `addr`. */
  function SegmentLabel(h: Heap, addr: int): (r: string)
    ensures r in {SEGMENT_HOT, SEGMENT_NONPROF, SEGMENT_PROFILED, SEGMENT_NONNMETHOD, UNKNOWN}
    ensures r == UNKNOWN <==> RangeOf(h, addr).None?
    ensures SlotForLabel(r) == RangeOf(h, addr)
  {
    if h.hot.Contains(addr) then SEGMENT_HOT
    else if h.c2.Contains(addr) then SEGMENT_PROFILED
    else if h.c1.Contains(addr) then SEGMENT_NONPROF
    else if h.nonMethod.Contains(addr) then SEGMENT_NONNMETHOD
    else UNKNOWN
  }

  /** With the corrected labels, an address inside a freshly announced
      segment, and outside every pair tested before it, is reported under the
      announced segment's own canonical name. */
  lemma SegmentLabelNamesAnnouncement(h: Heap, name: string, start: Long, end: Long, addr: Long)
    requires name in {SEGMENT_HOT, SEGMENT_NONPROF, SEGMENT_PROFILED, SEGMENT_NONNMETHOD}
    requires start <= addr <= end
    requires forall s :: Rank(s) < Rank(SlotForLabel(name).value) ==> !BoundsOf(h, s).Contains(addr)
    ensures SegmentLabel(AddSegment(h, name, start, end), addr) == name
  {
    var g := AddSegment(h, name, start, end);
    var slot := SlotForLabel(name).value;
    assert BoundsOf(g, slot).Contains(addr);
    forall s | Rank(s) < Rank(slot)
      ensures !BoundsOf(g, s).Contains(addr)
    {
      assert s != slot;
    }
  }

  /** As written, the same announcement is reported under the other
      middle name: bounds announced as "profiled nmethods" are named
      "non-profiled nmethods". */
  lemma SegmentNameSwapsLabels()
    ensures SegmentName(AddSegment(Empty, SEGMENT_PROFILED, 0x1000, 0x2000), 0x1800) == SEGMENT_NONPROF
    ensures SegmentName(AddSegment(Empty, SEGMENT_NONPROF, 0x1000, 0x2000), 0x1800) == SEGMENT_PROFILED
  {
  }

  /** Zero bounds: in a fresh table every range is `[0, 0]`, so address 0 is
      claimed by the hot pair and every other address by none. */
  lemma EmptyHeapClaimsOnlyZero(addr: Long, name: string)
    ensures AddMethod(Empty, addr, name).ok <==> addr == 0
    ensures addr == 0 ==> AddMethod(Empty, addr, name).heap.hotMethods == [name]
    ensures addr == 0 ==> SegmentName(Empty, addr) == SEGMENT_HOT
  {
  }
}

=== FILE: dcmd_format.dfy ===
/** The lines the two diagnostic commands print, written out from their
    parts, and proofs that the parser reads back exactly those parts:
    `Compiler.codecache` prints a header and a bounds line per segment,
    `Compiler.codelist` one record per compiled method. */
module DcmdFormat {
  import opened Options
  import opened JavaStrings
  import opened JavaNumbers
  import opened OutputParser

  /** A non-negative number as `%d` prints it. */
  function Decimal(n: nat): string {
    ToDigits(n, 10)
  }

  /** The sixteen hexadecimal digits of an address, zero-padded. */
  function HexDigits(n: nat): string {
    PadLeft(ToDigits(n, 16), 16)
  }

  /** An address as HotSpot's `INTPTR_FORMAT` prints it on a 64-bit VM. */
  function HexAddress(n: nat): string {
    "0x" + HexDigits(n)
  }

  /** A character that is no digit of the radix is not in a digit string. */
  lemma AbsentFromDigits(ds: string, radix: nat, c: char)
    requires AllDigits(ds, radix) && !IsDigit(c, radix)
    ensures c !in ds
  {
    forall k | 0 <= k < |ds|
      ensures ds[k] != c
    {
      assert IsDigit(ds[k], radix);
    }
  }

  /** Digit strings contain no line terminator. */
  lemma DigitsNoLineTerminator(ds: string, radix: nat)
    requires AllDigits(ds, radix)
    ensures NoLineTerminator(ds)
  {
    forall i | 0 <= i < |ds|
      ensures !IsLineTerminator(ds[i])
    {
      assert IsDigit(ds[i], radix);
    }
  }

  /** Decimal digits are neither spaces nor any other `\s` character. */
  lemma DecimalNoWhitespace(n: nat)
    ensures forall k :: 0 <= k < |Decimal(n)| ==> !IsWhitespace(Decimal(n)[k]) && IsAsciiDigit(Decimal(n)[k])
  {
    forall k | 0 <= k < |Decimal(n)|
      ensures !IsWhitespace(Decimal(n)[k]) && IsAsciiDigit(Decimal(n)[k])
    {
      assert IsDigit(Decimal(n)[k], 10);
    }
  }

  /** The characters of an address: `0`, `x` and hexadecimal digits only. */
  lemma AbsentFromAddress(n: nat, c: char)
    requires n <= LONG_MAX
    requires c != '0' && c != 'x' && !IsDigit(c, 16)
    ensures c !in HexAddress(n)
  {
    ParseLongOfPadded(n, 16, 16);
    AbsentFromDigits(HexDigits(n), 16, c);
  }

  lemma AddressNoLineTerminator(n: nat)
    requires n <= LONG_MAX
    ensures NoLineTerminator(HexAddress(n))
  {
    ParseLongOfPadded(n, 16, 16);
    DigitsNoLineTerminator(HexDigits(n), 16);
    NoLineTerminatorAppend("0x", HexDigits(n));
  }

  /** Removing `0x` from `0x` and a string without `x` leaves that string. */
  lemma ReplaceHexPrefix(ds: string)
    requires 'x' !in ds
    ensures Replace("0x" + ds, "0x", "") == ds
  {
    IndexOfMissing(ds, "0x", 'x');
    assert "0x" + ds == "" + "0x" + ds;
    PiecesCons("", "0x", ds);
    assert Pieces("0x" + ds, "0x") == ["", ds];
    assert ["", ds][1..] == [ds];
    assert Join(["", ds], "") == "" + "" + Join([ds], "");
  }

  /** The digits of an address read back from its text. */
  lemma AddressRoundTrip(n: nat)
    requires n <= LONG_MAX
    ensures ParseLong(Replace(HexAddress(n), "0x", ""), 16) == Some(n)
  {
    ParseLongOfPadded(n, 16, 16);
    AbsentFromDigits(HexDigits(n), 16, 'x');
    ReplaceHexPrefix(HexDigits(n));
  }

  /** The header of a segment of a segmented code cache. */
  function SegmentHeader(name: string, usage: string): string {
    "CodeHeap '" + name + "': " + usage
  }

  /** A non-empty quoted text after a quote-free prefix is the second
      piece of the split at quotes. */
  lemma SecondPieceQuoted(a: string, name: string, b: string)
    requires '\'' !in a && '\'' !in name && |name| > 0
    ensures |Split(a + "'" + name + "'" + b, "'")| > 1
    ensures Pieces(a + "'" + name + "'" + b, "'")[1] == name
  {
    var line := a + "'" + name + "'" + b;
    var rest := name + "'" + b;
    assert line == a + "'" + rest;
    PiecesCons(a, "'", rest);
    PiecesCons(name, "'", b);
    IndexOfAfter(a, "'", rest);
    var pieces := Pieces(line, "'");
    assert pieces[1] == name;
  }

  lemma SegmentHeaderRecognised(name: string, usage: string)
    requires NoLineTerminator(name) && NoLineTerminator(usage)
    ensures IsHeaderLine(SegmentHeader(name, usage))
  {
    var line := SegmentHeader(name, usage);
    assert line[..10] == "CodeHeap '";
    NoLineTerminatorAppend("CodeHeap '", name);
    NoLineTerminatorAppend("CodeHeap '" + name, "': ");
    NoLineTerminatorAppend("CodeHeap '" + name + "': ", usage);
  }

  /** A segment header is recognised, and its quoted name read back. */
  lemma SegmentHeaderRoundTrip(name: string, usage: string)
    requires |name| > 0 && '\'' !in name
    requires NoLineTerminator(name) && NoLineTerminator(usage)
    ensures IsHeaderLine(SegmentHeader(name, usage))
    ensures HeaderName(SegmentHeader(name, usage)) == Some(name)
  {
    SegmentHeaderRecognised(name, usage);
    assert SegmentHeader(name, usage) == "CodeHeap " + "'" + name + "'" + (": " + usage);
    SecondPieceQuoted("CodeHeap ", name, ": " + usage);
  }

  /** A segment header whose name and usage have no digit directly
      followed by a space is not taken for a method record as well. */
  lemma SegmentHeaderNotRecord(name: string, usage: string)
    requires NoDigitBeforeSpace(name) && NoDigitBeforeSpace(usage)
    ensures !IsMethodLine(SegmentHeader(name, usage))
  {
    NoDigitBeforeSpaceAppend("CodeHeap '", name);
    NoDigitBeforeSpaceAppend("CodeHeap '" + name, "': ");
    NoDigitBeforeSpaceAppend("CodeHeap '" + name + "': ", usage);
    NotMethodLine(SegmentHeader(name, usage));
  }

  /** The header of an unsegmented cache, such as `CodeCache: size=...`. */
  function CacheHeader(name: string, rest: string): string {
    name + ": size=" + rest
  }

  /** An unsegmented header whose name ends in `Cache` is recognised, and
      the name before the colon read back. */
  lemma CacheHeaderRoundTrip(name: string, rest: string)
    requires |name| >= 5 && name[|name| - 5..] == "Cache"
    requires ':' !in name && '\'' !in name && '\'' !in rest
    ensures IsHeaderLine(CacheHeader(name, rest))
    ensures HeaderName(CacheHeader(name, rest)) == Some(name)
  {
    var line := CacheHeader(name, rest);
    var k := |name| - 5;
    assert line[k..k + 12] == "Cache: size=";
    assert OccursAt(line, "Cache: size=", k);
    IndexOfMissing(line, "'", '\'');
    assert line == name + ": " + ("size=" + rest);
    IndexOfAfter(name, ": ", "size=" + rest);
    assert line[..|name|] == name;
  }

  /** Nor is an unsegmented header. */
  lemma CacheHeaderNotRecord(name: string, rest: string)
    requires NoDigitBeforeSpace(name) && NoDigitBeforeSpace(rest)
    ensures !IsMethodLine(CacheHeader(name, rest))
  {
    NoDigitBeforeSpaceAppend(name, ": size=");
    NoDigitBeforeSpaceAppend(name + ": size=", rest);
    NotMethodLine(CacheHeader(name, rest));
  }

  /** The bounds line under a segment header: start, top and end address. */
  function BoundsLine(indent: string, start: nat, top: nat, end: nat): string {
    indent + "bounds [" + Join([HexAddress(start), HexAddress(top), HexAddress(end)], ", ") + "]"
  }

  /** The address fields split apart again. */
  lemma SplitAddresses(start: nat, top: nat, end: nat)
    requires start <= LONG_MAX && top <= LONG_MAX && end <= LONG_MAX
    ensures Split(Join([HexAddress(start), HexAddress(top), HexAddress(end)], ", "), ", ")
         == [HexAddress(start), HexAddress(top), HexAddress(end)]
  {
    AbsentFromAddress(start, ',');
    AbsentFromAddress(top, ',');
    AbsentFromAddress(end, ',');
    SplitJoin([HexAddress(start), HexAddress(top), HexAddress(end)], ", ");
  }

  /** A bounds line is read back as its start and end address. */
  lemma BoundsLineRoundTrip(indent: string, start: nat, top: nat, end: nat)
    requires '[' !in indent
    requires start <= LONG_MAX && top <= LONG_MAX && end <= LONG_MAX
    ensures ParseBounds(BoundsLine(indent, start, top, end)) == Some((start, end))
  {
    var line := BoundsLine(indent, start, top, end);
    var inner := Join([HexAddress(start), HexAddress(top), HexAddress(end)], ", ");
    var before := indent + "bounds ";
    assert line == before + "[" + (inner + "]");
    IndexOfAfter(before, "[", inner + "]");
    var afterOpen := line[|before| + 1..];
    assert afterOpen == inner + "]" + "";
    AbsentFromAddress(start, ']');
    AbsentFromAddress(top, ']');
    AbsentFromAddress(end, ']');
    AbsentFromJoin([HexAddress(start), HexAddress(top), HexAddress(end)], ", ", ']');
    IndexOfAfter(inner, "]", "");
    assert afterOpen[..|inner|] == inner;
    SplitAddresses(start, top, end);
    AddressRoundTrip(start);
    AddressRoundTrip(end);
  }

  /** A method name and signature as a record prints them: the signature
      opens with `(`, and neither part holds a space, a colon or a line
      terminator; the name holds no `(`. Array types such as `([B)I` are
      allowed; only the text `[0x`, which the parser searches for to find
      the entry address, may not occur. */
  predicate PrintableMethod(name: string, signature: string) {
    && |signature| > 0 && signature[0] == '('
    && '(' !in name
    && ' ' !in name + signature && ':' !in name + signature
    && (forall k | 0 <= k < |name + signature| :: !OccursAt(name + signature, "[0x", k))
    && NoLineTerminator(name + signature)
  }

  /** The space-separated fields of a `Compiler.codelist` record: compile
      id, compilation level, state, name and signature, then the start of
      the method's code blob followed by its code range. */
  function RecordFields(id: nat, level: nat, state: nat, name: string, signature: string,
                        begin: nat, codeBegin: nat, codeEnd: nat): seq<string>
  {
    [Decimal(id), Decimal(level), Decimal(state), name + signature,
     "[" + HexAddress(begin) + ",", HexAddress(codeBegin), "-", HexAddress(codeEnd) + "]"]
  }

  /** A record of `Compiler.codelist`, such as
      `42 4 0 java.lang.String.hashCode()I [0x..., 0x... - 0x...]`. */
  function MethodLine(id: nat, level: nat, state: nat, name: string, signature: string,
                      begin: nat, codeBegin: nat, codeEnd: nat): string
  {
    Join(RecordFields(id, level, state, name, signature, begin, codeBegin, codeEnd), " ")
  }

  /** No field of a record holds `c`, a character that is neither in the
      name nor a digit, nor one of the punctuation characters. */
  lemma AbsentFromFields(fields: seq<string>, id: nat, level: nat, state: nat, name: string, signature: string,
                         begin: nat, codeBegin: nat, codeEnd: nat, c: char)
    requires fields == RecordFields(id, level, state, name, signature, begin, codeBegin, codeEnd)
    requires begin <= LONG_MAX && codeBegin <= LONG_MAX && codeEnd <= LONG_MAX
    requires c !in name + signature && !IsDigit(c, 16) && c !in "x[],-"
    ensures forall i :: 0 <= i < |fields| ==> c !in fields[i]
  {
    AbsentFromDigits(Decimal(id), 10, c);
    AbsentFromDigits(Decimal(level), 10, c);
    AbsentFromDigits(Decimal(state), 10, c);
    AbsentFromAddress(begin, c);
    AbsentFromAddress(codeBegin, c);
    AbsentFromAddress(codeEnd, c);
  }

  /** The record split at single spaces gives its fields back. */
  lemma MethodLineFields(id: nat, level: nat, state: nat, name: string, signature: string,
                         begin: nat, codeBegin: nat, codeEnd: nat)
    requires PrintableMethod(name, signature)
    requires begin <= LONG_MAX && codeBegin <= LONG_MAX && codeEnd <= LONG_MAX
    ensures Split(MethodLine(id, level, state, name, signature, begin, codeBegin, codeEnd), " ")
         == RecordFields(id, level, state, name, signature, begin, codeBegin, codeEnd)
  {
    var fields := RecordFields(id, level, state, name, signature, begin, codeBegin, codeEnd);
    AbsentFromFields(fields, id, level, state, name, signature, begin, codeBegin, codeEnd, ' ');
    SplitJoin(fields, " ");
  }

  /** Associativity, one part at a time. */
  lemma Regroup(a: string, b: string, rest: string)
    ensures a + " " + (b + " " + rest) == a + " " + b + " " + rest
  {
  }

  lemma RegroupFive(a: string, b: string, c: string, d: string, e: string, rest: string)
    ensures a + " " + (b + " " + (c + " " + (d + " " + (e + " " + rest))))
         == a + " " + b + " " + c + " " + d + " " + e + " " + rest
  {
    Regroup(d, e, rest);
    Regroup(c, d + " " + e, rest);
    Regroup(b, c + " " + d + " " + e, rest);
    Regroup(a, b + " " + c + " " + d + " " + e, rest);
  }

  /** The first five parts of a join written out. */
  lemma JoinFive(f: seq<string>)
    requires |f| > 5
    ensures Join(f, " ") == f[0] + " " + f[1] + " " + f[2] + " " + f[3] + " " + f[4] + " " + Join(f[5..], " ")
  {
    JoinUnfold(f, " ", 0);
    JoinUnfold(f, " ", 1);
    JoinUnfold(f, " ", 2);
    JoinUnfold(f, " ", 3);
    JoinUnfold(f, " ", 4);
    assert f[0..] == f;
    RegroupFive(f[0], f[1], f[2], f[3], f[4], Join(f[5..], " "));
  }

  /** The record laid out around the text `[0x` that opens the entry address. */
  lemma MethodLineLayout(id: nat, level: nat, state: nat, name: string, signature: string,
                         begin: nat, codeBegin: nat, codeEnd: nat)
    ensures var f := RecordFields(id, level, state, name, signature, begin, codeBegin, codeEnd);
            MethodLine(id, level, state, name, signature, begin, codeBegin, codeEnd)
            == f[0] + " " + f[1] + " " + f[2] + " " + f[3] + " " + "[0x" + (HexDigits(begin) + "," + (" " + Join(f[5..], " ")))
  {
    var f := RecordFields(id, level, state, name, signature, begin, codeBegin, codeEnd);
    JoinFive(f);
    var prefix := f[0] + " " + f[1] + " " + f[2] + " " + f[3] + " ";
    var ds := HexDigits(begin);
    var j5 := Join(f[5..], " ");
    assert f[4] == "[0x" + ds + ",";
    assert prefix + f[4] + " " + j5 == prefix + "[0x" + (ds + "," + (" " + j5));
  }

  /** The entry address is read back from the text after `[0x`. */
  lemma MethodLineEntry(id: nat, level: nat, state: nat, name: string, signature: string,
                        begin: nat, codeBegin: nat, codeEnd: nat)
    requires PrintableMethod(name, signature)
    requires begin <= LONG_MAX
    ensures var line := MethodLine(id, level, state, name, signature, begin, codeBegin, codeEnd);
            var from := IndexOf(line, "[0x") + 3;
            && from <= |line|
            && IndexOf(line[from..], ",") >= 0
            && ParseLong(line[from..][..IndexOf(line[from..], ",")], 16) == Some(begin)
  {
    var f := RecordFields(id, level, state, name, signature, begin, codeBegin, codeEnd);
    var line := MethodLine(id, level, state, name, signature, begin, codeBegin, codeEnd);
    var numbers := f[0] + " " + f[1] + " " + f[2] + " ";
    var prefix := f[0] + " " + f[1] + " " + f[2] + " " + f[3] + " ";
    var ds := HexDigits(begin);
    var after := ds + "," + (" " + Join(f[5..], " "));
    MethodLineLayout(id, level, state, name, signature, begin, codeBegin, codeEnd);
    assert IndexOf(prefix, "[0x") == -1 by {
      AbsentFromDigits(Decimal(id), 10, '[');
      AbsentFromDigits(Decimal(level), 10, '[');
      AbsentFromDigits(Decimal(state), 10, '[');
      assert '[' !in numbers;
      AbsentAcross(numbers, f[3], ' ', "[0x");
      assert prefix == numbers + f[3] + [' '];
    }
    IndexOfAfterFree(prefix, "[0x", after);
    assert line[|prefix| + 3..] == after;
    ParseLongOfPadded(begin, 16, 16);
    AbsentFromDigits(ds, 16, ',');
    IndexOfAfter(ds, ",", " " + Join(f[5..], " "));
    assert after[..|ds|] == ds;
  }

  /** The compilation level is the second word of the record split at `\s+`. */
  lemma MethodLineLevel(id: nat, level: nat, state: nat, name: string, signature: string,
                        begin: nat, codeBegin: nat, codeEnd: nat)
    ensures var words := SplitWhitespace(MethodLine(id, level, state, name, signature, begin, codeBegin, codeEnd));
            |words| >= 2 && words[1] == Decimal(level)
  {
    var f := RecordFields(id, level, state, name, signature, begin, codeBegin, codeEnd);
    var j1, j2 := Join(f[1..], " "), Join(f[2..], " ");
    assert j1 == f[1] + " " + j2 by {
      JoinUnfold(f, " ", 1);
    }
    assert WsPieces(j1) == [f[1]] + WsPieces(j2) by {
      DecimalNoWhitespace(level);
      DecimalNoWhitespace(state);
      assert j2[0] == f[2][0] by {
        JoinUnfold(f, " ", 2);
      }
      WsPiecesCons(f[1], j2);
    }
    assert WsPieces(Join(f, " ")) == [f[0]] + WsPieces(j1) by {
      assert Join(f, " ") == f[0] + " " + j1 by {
        JoinUnfold(f, " ", 0);
        assert f[0..] == f;
      }
      DecimalNoWhitespace(id);
      assert j1[0] == f[1][0];
      WsPiecesCons(f[0], j1);
    }
    SecondWord(Join(f, " "), f[0], f[1], WsPieces(j2));
  }

  /** A non-empty second piece survives the dropping of trailing empty pieces. */
  lemma SecondWord(line: string, a: string, b: string, more: seq<string>)
    requires WsPieces(line) == [a] + ([b] + more) && b != ""
    ensures |SplitWhitespace(line)| >= 2 && SplitWhitespace(line)[1] == b
  {
    assert WsPieces(line)[1] == b;
  }

  /** The name is the part of `name + signature` before its first `(`. */
  lemma NameBeforeSignature(name: string, signature: string)
    requires |signature| > 0 && signature[0] == '(' && '(' !in name
    ensures IndexOf(name + signature, "(") == |name| && (name + signature)[..|name|] == name
  {
    assert name + signature == name + "(" + signature[1..];
    IndexOfAfter(name, "(", signature[1..]);
  }

  /** The name is the fourth space-separated field cut before its `(`. */
  lemma MethodLineName(id: nat, level: nat, state: nat, name: string, signature: string,
                       begin: nat, codeBegin: nat, codeEnd: nat)
    requires PrintableMethod(name, signature)
    requires begin <= LONG_MAX && codeBegin <= LONG_MAX && codeEnd <= LONG_MAX
    ensures var fields := Split(MethodLine(id, level, state, name, signature, begin, codeBegin, codeEnd), " ");
            |fields| >= 4 && IndexOf(fields[3], "(") == |name| && fields[3][..|name|] == name
  {
    MethodLineFields(id, level, state, name, signature, begin, codeBegin, codeEnd);
    NameBeforeSignature(name, signature);
  }

  /** A record is parsed back into its entry address, name and level. */
  lemma MethodLineRoundTrip(id: nat, level: nat, state: nat, name: string, signature: string,
                            begin: nat, codeBegin: nat, codeEnd: nat)
    requires PrintableMethod(name, signature)
    requires level <= INT_MAX
    requires begin <= LONG_MAX && codeBegin <= LONG_MAX && codeEnd <= LONG_MAX
    ensures ParseMethodRecord(MethodLine(id, level, state, name, signature, begin, codeBegin, codeEnd))
         == Some(MethodRecord(begin, name, level))
  {
    var line := MethodLine(id, level, state, name, signature, begin, codeBegin, codeEnd);
    MethodLineEntry(id, level, state, name, signature, begin, codeBegin, codeEnd);
    MethodLineFields(id, level, state, name, signature, begin, codeBegin, codeEnd);
    MethodLineLevel(id, level, state, name, signature, begin, codeBegin, codeEnd);
    ParseIntOfDigits(level);
    MethodLineName(id, level, state, name, signature, begin, codeBegin, codeEnd);
    ParsedRecord(line, begin, name, level);
  }

  lemma FieldsNoLineTerminator(fields: seq<string>, id: nat, level: nat, state: nat, name: string, signature: string,
                               begin: nat, codeBegin: nat, codeEnd: nat)
    requires fields == RecordFields(id, level, state, name, signature, begin, codeBegin, codeEnd)
    requires NoLineTerminator(name + signature)
    requires begin <= LONG_MAX && codeBegin <= LONG_MAX && codeEnd <= LONG_MAX
    ensures forall i :: 0 <= i < |fields| ==> NoLineTerminator(fields[i])
  {
    DigitsNoLineTerminator(Decimal(id), 10);
    DigitsNoLineTerminator(Decimal(level), 10);
    DigitsNoLineTerminator(Decimal(state), 10);
    AddressNoLineTerminator(begin);
    AddressNoLineTerminator(codeBegin);
    AddressNoLineTerminator(codeEnd);
    NoLineTerminatorAppend("[", HexAddress(begin));
    NoLineTerminatorAppend("[" + HexAddress(begin), ",");
    NoLineTerminatorAppend(HexAddress(codeEnd), "]");
  }

  /** A join cut after its third part: the rest starts with the fourth
      and fifth parts, each after a space. */
  lemma JoinAfterThree(f: seq<string>)
    requires |f| > 5 && |f[4]| > 1
    ensures var rest := " " + f[3] + " " + f[4] + " " + Join(f[5..], " ");
            && Join(f, " ") == f[0] + " " + f[1] + " " + f[2] + rest
            && |f[3]| + 3 < |rest| && rest[|f[3]| + 3] == f[4][1]
  {
    JoinFive(f);
  }

  /** A record matches the method-line pattern. */
  lemma MethodLineMatches(id: nat, level: nat, state: nat, name: string, signature: string,
                          begin: nat, codeBegin: nat, codeEnd: nat)
    requires PrintableMethod(name, signature)
    requires begin <= LONG_MAX && codeBegin <= LONG_MAX && codeEnd <= LONG_MAX
    ensures IsMethodLine(MethodLine(id, level, state, name, signature, begin, codeBegin, codeEnd))
  {
    var f := RecordFields(id, level, state, name, signature, begin, codeBegin, codeEnd);
    var rest := " " + f[3] + " " + f[4] + " " + Join(f[5..], " ");
    assert f[4][1] == '0';
    JoinAfterThree(f);
    assert NoLineTerminator(Join(f, " ")) by {
      FieldsNoLineTerminator(f, id, level, state, name, signature, begin, codeBegin, codeEnd);
      NoLineTerminatorJoin(f, " ");
    }
    DecimalNoWhitespace(id);
    DecimalNoWhitespace(level);
    DecimalNoWhitespace(state);
    ThreeNumbersMatch(f[0], f[1], f[2], rest, |f[3]| + 3);
  }

  /** A record is not taken for a header. */
  lemma MethodLineNotHeader(id: nat, level: nat, state: nat, name: string, signature: string,
                            begin: nat, codeBegin: nat, codeEnd: nat)
    requires PrintableMethod(name, signature)
    requires begin <= LONG_MAX && codeBegin <= LONG_MAX && codeEnd <= LONG_MAX
    ensures !IsHeaderLine(MethodLine(id, level, state, name, signature, begin, codeBegin, codeEnd))
  {
    var f := RecordFields(id, level, state, name, signature, begin, codeBegin, codeEnd);
    var line := Join(f, " ");
    assert !Contains(line, "Cache: size=") by {
      AbsentFromFields(f, id, level, state, name, signature, begin, codeBegin, codeEnd, ':');
      AbsentFromJoin(f, " ", ':');
      IndexOfMissing(line, "Cache: size=", ':');
    }
    assert |line| > 0 && line[0] != 'C' by {
      JoinUnfold(f, " ", 0);
      assert f[0..] == f;
      DecimalNoWhitespace(id);
      assert line[0] == f[0][0];
    }
    assert !StartsWith(line, "CodeHeap '") by {
      if |line| >= 10 {
        assert line[..10][0] == line[0];
      }
    }
  }
}

=== FILE: hot_segment_tests.dfy ===
/** The test methods end to end: the output the VM prints is written out
    from structured segments and compiled methods, `runVM` reads it back,
    and a placement check judges the table. The main theorem says that
    reading the printed output is the same as announcing the segments and
    then placing the methods one by one. */
module HotSegmentTests {
  import opened Options
  import opened JavaStrings
  import opened JavaNumbers
  import opened CodeHeap
  import opened OutputParser
  import opened DcmdFormat
  import opened Placement

  /** What `Compiler.codecache` prints about one segment: a quoted name
      when the cache is segmented, a bare `...Cache` name otherwise; the
      bounds line with its indentation; then any further lines before the
      next segment (the summary after the last one). */
  datatype Segment = Segment(segmented: bool, name: string, usage: string,
                             indent: string, start: nat, top: nat, end: nat,
                             notes: seq<string>)

  /** What `Compiler.codelist` prints about one compiled method. */
  datatype Compiled = Compiled(id: nat, level: nat, state: nat, name: string, signature: string,
                               begin: nat, codeBegin: nat, codeEnd: nat)

  /** A segment whose header and bounds line the parser can take apart:
      a non-empty name without quotes, header texts without a digit
      directly followed by a space, addresses that are Java `long`s; a
      quoted header has no line terminator, a bare one names a `...Cache`
      without colons. */
  predicate WellPrintedSegment(s: Segment) {
    && PrintableExtras(s)
    && |s.name| > 0 && '\'' !in s.name
    && NoDigitBeforeSpace(s.name) && NoDigitBeforeSpace(s.usage)
    && s.start <= LONG_MAX && s.top <= LONG_MAX && s.end <= LONG_MAX
    && if s.segmented then NoLineTerminator(s.name) && NoLineTerminator(s.usage)
       else |s.name| >= 5 && s.name[|s.name| - 5..] == "Cache" && ':' !in s.name && '\'' !in s.usage
  }

  /** The bounds line's indentation holds no `[`, and no note line is
      taken for a header or a method record. */
  predicate PrintableExtras(s: Segment) {
    && '[' !in s.indent
    && forall i :: 0 <= i < |s.notes| ==> Skippable(s.notes[i])
  }

  /** A compiled method whose record the parser can take apart. */
  predicate WellPrintedMethod(c: Compiled) {
    && PrintableMethod(c.name, c.signature)
    && c.level <= INT_MAX
    && c.begin <= LONG_MAX && c.codeBegin <= LONG_MAX && c.codeEnd <= LONG_MAX
  }

  function HeaderText(s: Segment): string {
    if s.segmented then SegmentHeader(s.name, s.usage) else CacheHeader(s.name, s.usage)
  }

  function SegmentText(s: Segment): seq<string> {
    [HeaderText(s), BoundsLine(s.indent, s.start, s.top, s.end)] + s.notes
  }

  function RecordText(c: Compiled): string {
    MethodLine(c.id, c.level, c.state, c.name, c.signature, c.begin, c.codeBegin, c.codeEnd)
  }

  function SegmentsText(segs: seq<Segment>): seq<string> {
    if |segs| == 0 then [] else SegmentText(segs[0]) + SegmentsText(segs[1..])
  }

  function RecordsText(methods: seq<Compiled>): seq<string> {
    if |methods| == 0 then [] else [RecordText(methods[0])] + RecordsText(methods[1..])
  }

  /** The output of both commands, as the test captures it. */
  function Output(segs: seq<Segment>, methods: seq<Compiled>): seq<string> {
    SegmentsText(segs) + RecordsText(methods)
  }

  /** Reference semantics of the segment part: every segment announced in turn. */
  function Announce(h: Heap, segs: seq<Segment>): Heap
    requires forall i :: 0 <= i < |segs| ==> WellPrintedSegment(segs[i])
    decreases |segs|
  {
    if |segs| == 0 then h
    else
      assert WellPrintedSegment(segs[0]);
      Announce(AddSegment(h, segs[0].name, segs[0].start, segs[0].end), segs[1..])
  }

  /** Reference semantics of the record part: level-4 methods placed in
      turn, the first that fits no range ending everything. */
  function Place(h: Heap, methods: seq<Compiled>): RunResult
    requires forall i :: 0 <= i < |methods| ==> WellPrintedMethod(methods[i])
    decreases |methods|
  {
    if |methods| == 0 then Finished(h)
    else if methods[0].level != CLASSIFIED_LEVEL then Place(h, methods[1..])
    else
      assert WellPrintedMethod(methods[0]);
      var added := AddMethod(h, methods[0].begin, methods[0].name);
      if added.ok then Place(added.heap, methods[1..]) else NotInAnySegment(methods[0].name)
  }

  /** One segment's lines announce the segment and nothing else. */
  lemma RunSegment(h: Heap, s: Segment, rest: seq<string>)
    requires WellPrintedSegment(s)
    ensures Run(h, SegmentText(s) + rest) == Run(AddSegment(h, s.name, s.start, s.end), rest)
  {
    var header := HeaderText(s);
    var bounds := BoundsLine(s.indent, s.start, s.top, s.end);
    assert SegmentText(s) + rest == [header, bounds] + (s.notes + rest);
    RunHeader(h, s, s.notes + rest);
    RunSkipsAll(AddSegment(h, s.name, s.start, s.end), s.notes, rest);
  }

  /** A header and its bounds line perform one `addSegment`. */
  lemma RunHeader(h: Heap, s: Segment, rest: seq<string>)
    requires WellPrintedSegment(s)
    ensures Run(h, [HeaderText(s), BoundsLine(s.indent, s.start, s.top, s.end)] + rest)
         == Run(AddSegment(h, s.name, s.start, s.end), rest)
  {
    var header := HeaderText(s);
    var bounds := BoundsLine(s.indent, s.start, s.top, s.end);
    var lines := [header, bounds] + rest;
    var h1 := AddSegment(h, s.name, s.start, s.end);
    assert IsHeaderLine(header) && !IsMethodLine(header) && HeaderName(header) == Some(s.name) by {
      if s.segmented {
        SegmentHeaderRoundTrip(s.name, s.usage);
        SegmentHeaderNotRecord(s.name, s.usage);
      } else {
        CacheHeaderRoundTrip(s.name, s.usage);
        CacheHeaderNotRecord(s.name, s.usage);
      }
    }
    assert HeaderRule(h, header, Some(bounds)) == Some(h1) by {
      BoundsLineRoundTrip(s.indent, s.start, s.top, s.end);
    }
    assert lines[0] == header && Following(lines) == Some(bounds) && lines[2..] == rest;
    RunNext(h, lines);
  }

  /** One record is placed exactly as `Place` places it. */
  lemma RunRecord(h: Heap, c: Compiled, rest: seq<string>)
    requires WellPrintedMethod(c)
    ensures c.level != CLASSIFIED_LEVEL ==> Run(h, [RecordText(c)] + rest) == Run(h, rest)
    ensures c.level == CLASSIFIED_LEVEL && AddMethod(h, c.begin, c.name).ok ==>
              Run(h, [RecordText(c)] + rest) == Run(AddMethod(h, c.begin, c.name).heap, rest)
    ensures c.level == CLASSIFIED_LEVEL && !AddMethod(h, c.begin, c.name).ok ==>
              Run(h, [RecordText(c)] + rest) == NotInAnySegment(c.name)
  {
    var line := RecordText(c);
    var f := if |rest| > 0 then Some(rest[0]) else None;
    RecordStep(h, c, f);
    assert ([line] + rest)[1..] == rest;
  }

  /** The loop's step on a record is `Classify` on what it prints. */
  lemma RecordStep(h: Heap, c: Compiled, following: Option<string>)
    requires WellPrintedMethod(c)
    ensures Step(h, RecordText(c), following) == Classify(h, MethodRecord(c.begin, c.name, c.level), 1)
  {
    MethodLineRoundTrip(c.id, c.level, c.state, c.name, c.signature, c.begin, c.codeBegin, c.codeEnd);
    MethodLineMatches(c.id, c.level, c.state, c.name, c.signature, c.begin, c.codeBegin, c.codeEnd);
    MethodLineNotHeader(c.id, c.level, c.state, c.name, c.signature, c.begin, c.codeBegin, c.codeEnd);
  }

  lemma AppendAssoc(a: seq<string>, b: seq<string>, c: seq<string>)
    ensures a + b + c == a + (b + c)
  {
  }

  lemma {:induction false} RunSegments(h: Heap, segs: seq<Segment>, rest: seq<string>)
    requires forall i :: 0 <= i < |segs| ==> WellPrintedSegment(segs[i])
    ensures Run(h, SegmentsText(segs) + rest) == Run(Announce(h, segs), rest)
    decreases |segs|
  {
    if |segs| == 0 {
      assert SegmentsText(segs) + rest == rest;
    } else {
      var s := segs[0];
      var more := SegmentsText(segs[1..]);
      assert WellPrintedSegment(s);
      assert SegmentsText(segs) == SegmentText(s) + more;
      AppendAssoc(SegmentText(s), more, rest);
      RunSegment(h, s, more + rest);
      var h1 := AddSegment(h, s.name, s.start, s.end);
      RunSegments(h1, segs[1..], rest);
      assert Announce(h, segs) == Announce(h1, segs[1..]);
    }
  }

  lemma {:induction false} RunRecords(h: Heap, methods: seq<Compiled>)
    requires forall i :: 0 <= i < |methods| ==> WellPrintedMethod(methods[i])
    ensures Run(h, RecordsText(methods)) == Place(h, methods)
    decreases |methods|
  {
    if |methods| > 0 {
      var c, more := methods[0], methods[1..];
      assert WellPrintedMethod(c);
      assert RecordsText(methods) == [RecordText(c)] + RecordsText(more);
      RunRecord(h, c, RecordsText(more));
      var added := AddMethod(h, c.begin, c.name);
      if c.level != CLASSIFIED_LEVEL {
        RunRecords(h, more);
        assert Place(h, methods) == Place(h, more);
      } else if added.ok {
        RunRecords(added.heap, more);
        assert Place(h, methods) == Place(added.heap, more);
      } else {
        assert Place(h, methods) == NotInAnySegment(c.name);
      }
    }
  }

  /** `runVM` on the printed output is the reference semantics: announce
      every segment, then place every method. */
  lemma OutputRoundTrip(segs: seq<Segment>, methods: seq<Compiled>)
    requires forall i :: 0 <= i < |segs| ==> WellPrintedSegment(segs[i])
    requires forall i :: 0 <= i < |methods| ==> WellPrintedMethod(methods[i])
    ensures RunVM(Output(segs, methods)) == Place(Announce(Empty, segs), methods)
  {
    RunSegments(Empty, segs, RecordsText(methods));
    RunRecords(Announce(Empty, segs), methods);
  }

  /** Lines that neither rule acts on, printed before the first header,
      change nothing. */
  lemma OutputAfterPreamble(preamble: seq<string>, segs: seq<Segment>, methods: seq<Compiled>)
    requires forall i :: 0 <= i < |preamble| ==> Skippable(preamble[i])
    requires forall i :: 0 <= i < |segs| ==> WellPrintedSegment(segs[i])
    requires forall i :: 0 <= i < |methods| ==> WellPrintedMethod(methods[i])
    ensures RunVM(preamble + Output(segs, methods)) == Place(Announce(Empty, segs), methods)
  {
    RunSkipsAll(Empty, preamble, Output(segs, methods));
    OutputRoundTrip(segs, methods);
  }

  /** Placing records either reads them all or ends at an unplaced one:
      the reference semantics never stops on a malformed line. */
  lemma {:induction false} PlaceNeverStops(h: Heap, methods: seq<Compiled>)
    requires forall i :: 0 <= i < |methods| ==> WellPrintedMethod(methods[i])
    ensures !Place(h, methods).Stopped?
    decreases |methods|
  {
    if |methods| > 0 {
      var c := methods[0];
      var added := AddMethod(h, c.begin, c.name);
      if c.level != CLASSIFIED_LEVEL {
        PlaceNeverStops(h, methods[1..]);
      } else if added.ok {
        PlaceNeverStops(added.heap, methods[1..]);
      }
    }
  }

  /** Lines that neither rule acts on, printed after the last record (a VM
      warning, text printed after the last command), change nothing. */
  lemma OutputBeforeTrailer(segs: seq<Segment>, methods: seq<Compiled>, trailer: seq<string>)
    requires forall i :: 0 <= i < |segs| ==> WellPrintedSegment(segs[i])
    requires forall i :: 0 <= i < |methods| ==> WellPrintedMethod(methods[i])
    requires forall i :: 0 <= i < |trailer| ==> Skippable(trailer[i])
    ensures RunVM(Output(segs, methods) + trailer) == Place(Announce(Empty, segs), methods)
  {
    var out := Output(segs, methods);
    OutputRoundTrip(segs, methods);
    PlaceNeverStops(Announce(Empty, segs), methods);
    if RunVM(out).Finished? {
      var h := RunVM(out).heap;
      RunAppend(Empty, out, trailer);
      RunSkipsAll(h, trailer, []);
      assert trailer + [] == trailer;
    } else {
      UnplacedIsFinal(Empty, out, trailer);
    }
  }

  /** `testCommandFile`, `testDirectivesFile`, `testSegmentedNonTiered` and
      `testNonsegmented`: they differ only in the VM options, which shape
      the output, and pass exactly when the table keeps `java` methods in
      the hot list only. `None` is a pass, otherwise the error raised. */
  function HotOnlyTest(lines: seq<string>): (r: Option<Violation>)
    ensures r.None? <==> !RunVM(lines).NotInAnySegment? && JavaOnlyInHot(RunVM(lines).heap)
    ensures RunVM(lines).NotInAnySegment? <==> r.Some? && r.value.Unclassified?
  {
    match RunVM(lines)
    case NotInAnySegment(name) => Some(Unclassified(name))
    case Finished(h) => CheckJavaMethodsInHotOnly(h)
    case Stopped(h) => CheckJavaMethodsInHotOnly(h)
  }

  /** `testEmptyHotSegment`. */
  function EmptyHotTest(lines: seq<string>): (r: Option<Violation>)
    ensures r.None? <==> !RunVM(lines).NotInAnySegment? && |RunVM(lines).heap.hotMethods| == 0
    ensures RunVM(lines).NotInAnySegment? <==> r.Some? && r.value.Unclassified?
  {
    match RunVM(lines)
    case NotInAnySegment(name) => Some(Unclassified(name))
    case Finished(h) => CheckEmptyHot(h)
    case Stopped(h) => CheckEmptyHot(h)
  }

  /** `testSmallHotSegment`. */
  function SmallHotTest(lines: seq<string>): (r: Option<Violation>)
    ensures r.None? <==>
              && !RunVM(lines).NotInAnySegment?
              && |RunVM(lines).heap.hotMethods| > 0
              && !NoneWith(RunVM(lines).heap.c2Methods, true)
    ensures RunVM(lines).NotInAnySegment? <==> r.Some? && r.value.Unclassified?
  {
    match RunVM(lines)
    case NotInAnySegment(name) => Some(Unclassified(name))
    case Finished(h) => CheckSmallHot(h)
    case Stopped(h) => CheckSmallHot(h)
  }

  /** A test that fails with the `AssertionError` of `runVM` names a
      level-4 record of the output that passed the method pattern. */
  lemma UnclassifiedNamesARecord(lines: seq<string>, name: string)
    requires HotOnlyTest(lines) == Some(Unclassified(name))
          || EmptyHotTest(lines) == Some(Unclassified(name))
          || SmallHotTest(lines) == Some(Unclassified(name))
    ensures exists k :: 0 <= k < |lines| && IsClassifiedRecord(lines[k], name)
  {
    UnplacedHasWitness(Empty, lines);
  }

  /** When the loop reads the output to its end, or the `catch` ends it
      early, every test judges the table built so far. */
  lemma TestsOnTable(lines: seq<string>, h: Heap)
    requires RunVM(lines) == Finished(h) || RunVM(lines) == Stopped(h)
    ensures HotOnlyTest(lines) == CheckJavaMethodsInHotOnly(h)
    ensures EmptyHotTest(lines) == CheckEmptyHot(h)
    ensures SmallHotTest(lines) == CheckSmallHot(h)
  {
  }

  /** When a record escapes classification, every test fails with it. */
  lemma TestsOnUnplaced(lines: seq<string>, name: string)
    requires RunVM(lines) == NotInAnySegment(name)
    ensures HotOnlyTest(lines) == Some(Unclassified(name))
    ensures EmptyHotTest(lines) == Some(Unclassified(name))
    ensures SmallHotTest(lines) == Some(Unclassified(name))
  {
  }

  /** A segment's usage text and addresses as the parser needs them,
      whatever its name. */
  predicate PrintableUsage(s: Segment) {
    && PrintableExtras(s)
    && NoLineTerminator(s.usage) && NoDigitBeforeSpace(s.usage)
    && s.start <= LONG_MAX && s.top <= LONG_MAX && s.end <= LONG_MAX
  }

  /** The two segments a segmented cache with an extra-hot heap announces
      in the scenarios below, with `usage` texts such as `size=120028Kb`. */
  function HotAndNonProfiled(hot: Segment, nonProfiled: Segment): seq<Segment> {
    [hot.(segmented := true, name := SEGMENT_HOT), nonProfiled.(segmented := true, name := SEGMENT_NONPROF)]
  }

  /** Text without spaces has no digit directly followed by a space. */
  lemma SpaceFreeText(s: string)
    requires ' ' !in s
    ensures NoDigitBeforeSpace(s)
  {
    forall k | 0 <= k < |s| - 1 && IsAsciiDigit(s[k])
      ensures s[k + 1] != ' '
    {
      assert s[k + 1] in s;
    }
  }

  /** The segment labels print as well-formed headers. */
  lemma LabelsPrintable()
    ensures NoDigitBeforeSpace(SEGMENT_HOT) && NoDigitBeforeSpace(SEGMENT_NONPROF)
  {
    SpaceFreeText(SEGMENT_HOT);
    SpaceFreeText("non-profiled");
    SpaceFreeText("nmethods");
    NoDigitBeforeSpaceAppend(" ", "nmethods");
    NoDigitBeforeSpaceAppend("non-profiled", " nmethods");
    assert SEGMENT_NONPROF == "non-profiled" + " nmethods";
  }

  /** The hot label holds no quote and no line terminator. */
  lemma HotLabelQuotable()
    ensures '\'' !in SEGMENT_HOT && NoLineTerminator(SEGMENT_HOT)
  {
  }

  /** The non-profiled label holds no quote and no line terminator. */
  lemma NonProfiledLabelQuotable()
    ensures '\'' !in SEGMENT_NONPROF && NoLineTerminator(SEGMENT_NONPROF)
  {
  }

  /** A segmented header whose name has the shape of a label prints well. */
  lemma SegmentedPrintable(s: Segment)
    requires s.segmented && PrintableUsage(s)
    requires |s.name| > 0 && '\'' !in s.name && NoDigitBeforeSpace(s.name) && NoLineTerminator(s.name)
    ensures WellPrintedSegment(s)
  {
  }

  /** Both scenario segments print well. */
  lemma HotAndNonProfiledPrintable(hot: Segment, nonProfiled: Segment)
    requires PrintableUsage(hot) && PrintableUsage(nonProfiled)
    ensures forall i :: 0 <= i < 2 ==> WellPrintedSegment(HotAndNonProfiled(hot, nonProfiled)[i])
  {
    var segs := HotAndNonProfiled(hot, nonProfiled);
    LabelsPrintable();
    HotLabelQuotable();
    NonProfiledLabelQuotable();
    SegmentedPrintable(segs[0]);
    SegmentedPrintable(segs[1]);
  }

  /** The table after announcing the two segments: the hot bounds in `hot`,
      the non-profiled bounds in `c1`, nothing else set. */
  lemma AnnounceHotAndNonProfiled(hot: Segment, nonProfiled: Segment)
    requires PrintableUsage(hot) && PrintableUsage(nonProfiled)
    ensures forall i :: 0 <= i < 2 ==> WellPrintedSegment(HotAndNonProfiled(hot, nonProfiled)[i])
    ensures Announce(Empty, HotAndNonProfiled(hot, nonProfiled))
         == Empty.(hot := Bounds(hot.start, hot.end), c1 := Bounds(nonProfiled.start, nonProfiled.end))
  {
    var segs := HotAndNonProfiled(hot, nonProfiled);
    HotAndNonProfiledPrintable(hot, nonProfiled);
    LabelTable(SEGMENT_HOT);
    LabelTable(SEGMENT_NONPROF);
    var h1 := AddSegment(Empty, SEGMENT_HOT, hot.start, hot.end);
    var h2 := AddSegment(h1, SEGMENT_NONPROF, nonProfiled.start, nonProfiled.end);
    var tail := segs[1..];
    assert tail[0] == segs[1] && tail[1..] == [];
    assert Announce(h1, tail) == Announce(h2, []);
    assert Announce(Empty, segs) == Announce(h1, tail);
    HeapExtensionality(h2, Empty.(hot := Bounds(hot.start, hot.end), c1 := Bounds(nonProfiled.start, nonProfiled.end)));
  }

  /** Scenario: the directives send a `java` method to the hot segment and
      the record's address lies in the hot bounds. Every java-only test passes. */
  lemma JavaMethodInHotPasses(hot: Segment, nonProfiled: Segment, m: Compiled)
    requires PrintableUsage(hot) && PrintableUsage(nonProfiled) && WellPrintedMethod(m)
    requires m.level == CLASSIFIED_LEVEL && IsJava(m.name)
    requires hot.start <= m.begin <= hot.end
    ensures HotOnlyTest(Output(HotAndNonProfiled(hot, nonProfiled), [m])) == None
  {
    var segs := HotAndNonProfiled(hot, nonProfiled);
    AnnounceHotAndNonProfiled(hot, nonProfiled);
    OutputRoundTrip(segs, [m]);
    var h := Empty.(hot := Bounds(hot.start, hot.end), c1 := Bounds(nonProfiled.start, nonProfiled.end));
    assert RangeOf(h, m.begin) == Some(Hot);
    var g := AddMethod(h, m.begin, m.name).heap;
    assert g.hotMethods == [m.name] && g.c1Methods == [] && g.c2Methods == [];
    assert Place(h, [m]) == Finished(g);
    TestsOnTable(Output(segs, [m]), g);
  }

  /** Scenario: the hot segment is full and a second `java` method lands in
      the non-profiled bounds. The table files it under `c2SegmentMethods`,
      so the java-only check reports it as a wrong name in the c2 segment,
      while the small-hot test passes on the very same output. */
  lemma SpilloverIsReportedAsC2(hot: Segment, nonProfiled: Segment, a: Compiled, b: Compiled)
    requires PrintableUsage(hot) && PrintableUsage(nonProfiled) && WellPrintedMethod(a) && WellPrintedMethod(b)
    requires a.level == CLASSIFIED_LEVEL && IsJava(a.name) && hot.start <= a.begin <= hot.end
    requires b.level == CLASSIFIED_LEVEL && IsJava(b.name) && nonProfiled.start <= b.begin <= nonProfiled.end
    requires !(hot.start <= b.begin <= hot.end) && b.begin != 0
    ensures HotOnlyTest(Output(HotAndNonProfiled(hot, nonProfiled), [a, b])) == Some(WrongC2(b.name))
    ensures SmallHotTest(Output(HotAndNonProfiled(hot, nonProfiled), [a, b])) == None
  {
    var segs := HotAndNonProfiled(hot, nonProfiled);
    var lines := Output(segs, [a, b]);
    var k := Empty.(hot := Bounds(hot.start, hot.end), c1 := Bounds(nonProfiled.start, nonProfiled.end),
                    hotMethods := [a.name], c2Methods := [b.name]);
    assert RunVM(lines) == Finished(k) by {
      AnnounceHotAndNonProfiled(hot, nonProfiled);
      PlaceHotThenC1(hot, nonProfiled, a, b);
      PairPrints(a, b);
      OutputRoundTrip(segs, [a, b]);
    }
    TestsOnTable(lines, k);
    assert IsFirst(k.c2Methods, true, b.name);
  }

  /** A segment's usage text and addresses as the parser needs them under
      an unsegmented `...Cache: size=` header. */
  predicate PrintableCacheUsage(s: Segment) {
    && PrintableExtras(s)
    && '\'' !in s.usage && NoDigitBeforeSpace(s.usage)
    && s.start <= LONG_MAX && s.top <= LONG_MAX && s.end <= LONG_MAX
  }

  /** The two segments an unsegmented cache with an extra-hot heap
      announces: `ExtraHotCache` and `CodeCache`. */
  function Nonsegmented(hot: Segment, cache: Segment): seq<Segment> {
    [hot.(segmented := false, name := EXTRA_HOT_CACHE), cache.(segmented := false, name := CODE_CACHE)]
  }

  /** The unsegmented labels end in `Cache` and hold no colon, quote or space. */
  lemma CacheLabelsPrintable()
    ensures EXTRA_HOT_CACHE[|EXTRA_HOT_CACHE| - 5..] == "Cache" && ':' !in EXTRA_HOT_CACHE && '\'' !in EXTRA_HOT_CACHE
    ensures CODE_CACHE[|CODE_CACHE| - 5..] == "Cache" && ':' !in CODE_CACHE && '\'' !in CODE_CACHE
    ensures NoDigitBeforeSpace(EXTRA_HOT_CACHE) && NoDigitBeforeSpace(CODE_CACHE)
  {
    SpaceFreeText(EXTRA_HOT_CACHE);
    SpaceFreeText(CODE_CACHE);
  }

  /** Both unsegmented scenario segments print well. */
  lemma NonsegmentedPrintable(hot: Segment, cache: Segment)
    requires PrintableCacheUsage(hot) && PrintableCacheUsage(cache)
    ensures forall i :: 0 <= i < 2 ==> WellPrintedSegment(Nonsegmented(hot, cache)[i])
  {
    CacheLabelsPrintable();
  }

  /** `CodeCache` shares the c1 pair with the non-profiled segment and
      `ExtraHotCache` the hot pair: the unsegmented announcement builds the
      same table as the segmented one. */
  lemma AnnounceNonsegmented(hot: Segment, cache: Segment)
    requires PrintableCacheUsage(hot) && PrintableCacheUsage(cache)
    ensures forall i :: 0 <= i < 2 ==> WellPrintedSegment(Nonsegmented(hot, cache)[i])
    ensures Announce(Empty, Nonsegmented(hot, cache))
         == Empty.(hot := Bounds(hot.start, hot.end), c1 := Bounds(cache.start, cache.end))
  {
    var segs := Nonsegmented(hot, cache);
    NonsegmentedPrintable(hot, cache);
    LabelTable(EXTRA_HOT_CACHE);
    LabelTable(CODE_CACHE);
    var h1 := AddSegment(Empty, EXTRA_HOT_CACHE, hot.start, hot.end);
    var h2 := AddSegment(h1, CODE_CACHE, cache.start, cache.end);
    var tail := segs[1..];
    assert tail[0] == segs[1] && tail[1..] == [];
    assert Announce(h1, tail) == Announce(h2, []);
    assert Announce(Empty, segs) == Announce(h1, tail);
    HeapExtensionality(h2, Empty.(hot := Bounds(hot.start, hot.end), c1 := Bounds(cache.start, cache.end)));
  }

  /** Placing a method in the hot range and then one in the c1 range only. */
  lemma PlaceHotThenC1(hot: Segment, cache: Segment, m: Compiled, other: Compiled)
    requires WellPrintedMethod(m) && WellPrintedMethod(other)
    requires m.level == CLASSIFIED_LEVEL && hot.start <= m.begin <= hot.end
    requires other.level == CLASSIFIED_LEVEL && cache.start <= other.begin <= cache.end
    requires hot.end <= LONG_MAX && cache.end <= LONG_MAX
    requires !(hot.start <= other.begin <= hot.end) && other.begin != 0
    ensures Place(Empty.(hot := Bounds(hot.start, hot.end), c1 := Bounds(cache.start, cache.end)), [m, other])
         == Finished(Empty.(hot := Bounds(hot.start, hot.end), c1 := Bounds(cache.start, cache.end),
                            hotMethods := [m.name], c2Methods := [other.name]))
  {
    var h := Empty.(hot := Bounds(hot.start, hot.end), c1 := Bounds(cache.start, cache.end));
    var g := h.(hotMethods := [m.name]);
    assert AddMethod(h, m.begin, m.name) == Added(true, g);
    assert AddMethod(g, other.begin, other.name) == Added(true, g.(c2Methods := [other.name]));
    assert [m, other][1..] == [other] && [other][1..] == [];
    assert Place(h, [m, other]) == Place(g, [other]);
    assert Place(g, [other]) == Place(g.(c2Methods := [other.name]), []);
  }

  /** Two printable records form a printable list. */
  lemma PairPrints(m: Compiled, other: Compiled)
    requires WellPrintedMethod(m) && WellPrintedMethod(other)
    ensures forall i :: 0 <= i < |[m, other]| ==> WellPrintedMethod([m, other][i])
  {
  }

  /** Scenario `testNonsegmented`: a `java` method in the `ExtraHotCache`
      bounds and a non-`java` method in the `CodeCache` bounds. The test
      passes; the second method is filed under `c2SegmentMethods`, where only
      `java` names would be wrong. */
  lemma NonsegmentedJavaInHotPasses(hot: Segment, cache: Segment, m: Compiled, other: Compiled)
    requires PrintableCacheUsage(hot) && PrintableCacheUsage(cache)
    requires WellPrintedMethod(m) && WellPrintedMethod(other)
    requires m.level == CLASSIFIED_LEVEL && IsJava(m.name) && hot.start <= m.begin <= hot.end
    requires other.level == CLASSIFIED_LEVEL && !IsJava(other.name) && cache.start <= other.begin <= cache.end
    requires !(hot.start <= other.begin <= hot.end) && other.begin != 0
    ensures HotOnlyTest(Output(Nonsegmented(hot, cache), [m, other])) == None
  {
    var segs := Nonsegmented(hot, cache);
    var lines := Output(segs, [m, other]);
    var k := Empty.(hot := Bounds(hot.start, hot.end), c1 := Bounds(cache.start, cache.end),
                    hotMethods := [m.name], c2Methods := [other.name]);
    assert RunVM(lines) == Finished(k) by {
      AnnounceNonsegmented(hot, cache);
      PlaceHotThenC1(hot, cache, m, other);
      PairPrints(m, other);
      OutputRoundTrip(segs, [m, other]);
    }
    TestsOnTable(lines, k);
    assert JavaOnlyInHot(k);
  }

  /** Scenario: no method was compiled at level 4. The java-only check
      fails on the empty hot list and the empty-hot test passes. */
  lemma NothingCompiledLeavesHotEmpty(segs: seq<Segment>)
    requires forall i :: 0 <= i < |segs| ==> WellPrintedSegment(segs[i])
    ensures HotOnlyTest(Output(segs, [])) == Some(HotEmpty)
    ensures EmptyHotTest(Output(segs, [])) == None
    ensures SmallHotTest(Output(segs, [])) == Some(HotStillEmpty)
  {
    var lines := Output(segs, []);
    var a := Announce(Empty, segs);
    OutputRoundTrip(segs, []);
    TestsOnTable(lines, a);
    AnnounceKeepsMethods(Empty, segs);
    assert MethodsOf(a, Hot) == [];
  }

  /** Announcing segments sets bounds only. */
  lemma {:induction false} AnnounceKeepsMethods(h: Heap, segs: seq<Segment>)
    requires forall i :: 0 <= i < |segs| ==> WellPrintedSegment(segs[i])
    ensures forall s :: MethodsOf(Announce(h, segs), s) == MethodsOf(h, s)
    decreases |segs|
  {
    if |segs| > 0 {
      assert WellPrintedSegment(segs[0]);
      AnnounceKeepsMethods(AddSegment(h, segs[0].name, segs[0].start, segs[0].end), segs[1..]);
    }
  }

  /** A level-4 method outside every announced range is where the
      reference semantics stops, whatever follows it. */
  lemma PlaceStopsAtUnplaced(h: Heap, m: Compiled, more: seq<Compiled>)
    requires WellPrintedMethod(m) && forall i :: 0 <= i < |more| ==> WellPrintedMethod(more[i])
    requires m.level == CLASSIFIED_LEVEL
    requires forall s :: !BoundsOf(h, s).Contains(m.begin)
    ensures forall i :: 0 <= i < |[m] + more| ==> WellPrintedMethod(([m] + more)[i])
    ensures Place(h, [m] + more) == NotInAnySegment(m.name)
  {
    var methods := [m] + more;
    forall i | 0 <= i < |methods|
      ensures WellPrintedMethod(methods[i])
    {
      if i > 0 {
        assert methods[i] == more[i - 1];
      }
    }
    assert methods[0] == m;
    assert !AddMethod(h, m.begin, m.name).ok;
  }

  /** Scenario: a level-4 record whose address lies in no announced range
      ends every test with the `AssertionError`, whatever follows it. */
  lemma UnplacedRecordEndsEveryTest(segs: seq<Segment>, m: Compiled, more: seq<Compiled>)
    requires forall i :: 0 <= i < |segs| ==> WellPrintedSegment(segs[i])
    requires WellPrintedMethod(m) && forall i :: 0 <= i < |more| ==> WellPrintedMethod(more[i])
    requires m.level == CLASSIFIED_LEVEL
    requires forall s :: !BoundsOf(Announce(Empty, segs), s).Contains(m.begin)
    ensures HotOnlyTest(Output(segs, [m] + more)) == Some(Unclassified(m.name))
    ensures EmptyHotTest(Output(segs, [m] + more)) == Some(Unclassified(m.name))
    ensures SmallHotTest(Output(segs, [m] + more)) == Some(Unclassified(m.name))
  {
    PlaceStopsAtUnplaced(Announce(Empty, segs), m, more);
    OutputRoundTrip(segs, [m] + more);
    TestsOnUnplaced(Output(segs, [m] + more), m.name);
  }
}

=== FILE: java_numbers.dfy ===
/** Java's `long` and `int` ranges, `Long.parseLong(s, radix)` and
    `Integer.valueOf(s)`, and the digit strings a formatter such as `%x` or
    `%d` prints for a non-negative number. */
module JavaNumbers {
  import opened Options

  const LONG_MIN: int := -0x8000_0000_0000_0000
  const LONG_MAX: int := 0x7fff_ffff_ffff_ffff
  const INT_MIN: int := -0x8000_0000
  const INT_MAX: int := 0x7fff_ffff

  /** A value of Java type `long`. */
  type Long = x: int | LONG_MIN <= x <= LONG_MAX

  /** `Character.digit(c, 36)` on ASCII: decimal digits, then letters of
      either case; -1 for every other character. */
  function DigitValue(c: char): int {
    if '0' <= c <= '9' then c as int - '0' as int
    else if 'a' <= c <= 'z' then c as int - 'a' as int + 10
    else if 'A' <= c <= 'Z' then c as int - 'A' as int + 10
    else -1
  }

  predicate IsDigit(c: char, radix: nat) {
    0 <= DigitValue(c) < radix
  }

  predicate AllDigits(s: string, radix: nat) {
    forall i :: 0 <= i < |s| ==> IsDigit(s[i], radix)
  }

  /** The value of a digit string, most significant digit first. */
  function Magnitude(ds: string, radix: nat): nat
    requires AllDigits(ds, radix)
  {
    if |ds| == 0 then 0
    else Magnitude(ds[..|ds| - 1], radix) * radix + DigitValue(ds[|ds| - 1])
  }

  /** A numeral in the radix: an optional leading `-` or `+`, then at least
      one digit and nothing else. */
  predicate IsNumeral(s: string, radix: nat) {
    && |s| > 0
    && if s[0] == '-' || s[0] == '+' then |s| > 1 && AllDigits(s[1..], radix)
       else AllDigits(s, radix)
  }

  /** The value a numeral denotes, with its sign. */
  function NumeralValue(s: string, radix: nat): int
    requires IsNumeral(s, radix)
  {
    if s[0] == '-' then -(Magnitude(s[1..], radix) as int)
    else if s[0] == '+' then Magnitude(s[1..], radix)
    else Magnitude(s, radix)
  }

  /** The parser shared by `Long.parseLong` and `Integer.parseInt`, for a
      type whose values are `lo..hi`: an optional leading `-` or `+`, then at
      least one digit of the radix, and the value must fit. `None` is where
      Java throws `NumberFormatException`: the empty string, a lone sign, a
      character that is no digit of the radix, or a value out of range. */
  function ParseSigned(s: string, radix: nat, lo: int, hi: int): (r: Option<int>)
    requires 2 <= radix <= 36
    ensures r.Some? <==> IsNumeral(s, radix) && lo <= NumeralValue(s, radix) <= hi
    ensures r.Some? ==> r.value == NumeralValue(s, radix)
    ensures r.Some? ==> lo <= r.value <= hi
    ensures |s| == 0 ==> r.None?
    ensures r.Some? && AllDigits(s, radix) ==> r.value == Magnitude(s, radix)
    ensures r.Some? && |s| > 0 && s[0] == '-' ==> r.value <= 0
  {
    if |s| == 0 then None
    else
      var signed := s[0] == '-' || s[0] == '+';
      var digits := if signed then s[1..] else s;
      if |digits| == 0 || !AllDigits(digits, radix) then None
      else
        var m: int := Magnitude(digits, radix);
        var v := if s[0] == '-' then -m else m;
        if lo <= v <= hi then Some(v) else None
  }

  /** `Long.parseLong(s, radix)`. */
  function ParseLong(s: string, radix: nat): (r: Option<Long>)
    requires 2 <= radix <= 36
    ensures r.Some? <==> IsNumeral(s, radix) && LONG_MIN <= NumeralValue(s, radix) <= LONG_MAX
    ensures r.Some? ==> r.value == NumeralValue(s, radix)
  {
    match ParseSigned(s, radix, LONG_MIN, LONG_MAX)
    case Some(v) => Some(v as Long)
    case None => None
  }

  /** `Integer.valueOf(s)`, as an `int`. */
  function ParseInt(s: string): (r: Option<int>)
    ensures r.Some? <==> IsNumeral(s, 10) && INT_MIN <= NumeralValue(s, 10) <= INT_MAX
    ensures r.Some? ==> r.value == NumeralValue(s, 10)
    ensures r.Some? ==> INT_MIN <= r.value <= INT_MAX
  {
    ParseSigned(s, 10, INT_MIN, INT_MAX)
  }

  /** A plain digit string (no sign) whose value fits is parsed to that value. */
  lemma ParseSignedOfDigits(s: string, radix: nat, lo: int, hi: int)
    requires 2 <= radix <= 36
    requires |s| > 0 && AllDigits(s, radix)
    requires lo <= Magnitude(s, radix) <= hi
    ensures ParseSigned(s, radix, lo, hi) == Some(Magnitude(s, radix))
  {
    assert IsDigit(s[0], radix);
  }

  /** The lower-case digit for `d`, as `%x` prints it. */
  function DigitChar(d: nat): (c: char)
    requires d < 36
    ensures DigitValue(c) == d
  {
    if d < 10 then ('0' as int + d) as char else ('a' as int + d - 10) as char
  }

  /** Appending one digit multiplies the value by the radix and adds the digit. */
  lemma MagnitudeSnoc(front: string, d: nat, radix: nat)
    requires 2 <= radix <= 36 && d < radix && AllDigits(front, radix)
    ensures AllDigits(front + [DigitChar(d)], radix)
    ensures Magnitude(front + [DigitChar(d)], radix) == Magnitude(front, radix) * radix + d
  {
    var r := front + [DigitChar(d)];
    assert r[..|r| - 1] == front;
  }

  /** Euclidean division by the radix, as `ToDigits` uses it. */
  lemma DivMod(n: nat, radix: nat)
    requires 2 <= radix <= n
    ensures n / radix < n && n == (n / radix) * radix + n % radix
  {
  }

  /** The digits of `n` in `radix` without leading zeros (`"0"` for zero). */
  function ToDigits(n: nat, radix: nat): (r: string)
    requires 2 <= radix <= 36
    ensures |r| >= 1 && AllDigits(r, radix)
    ensures Magnitude(r, radix) == n
    decreases n
  {
    if n < radix then
      [DigitChar(n)]
    else
      DivMod(n, radix);
      var front := ToDigits(n / radix, radix);
      MagnitudeSnoc(front, n % radix, radix);
      front + [DigitChar(n % radix)]
  }

  /** `k` zero digits. */
  function Zeros(k: nat): (r: string)
    ensures |r| == k
    ensures forall i :: 0 <= i < k ==> r[i] == '0'
  {
    if k == 0 then [] else ['0'] + Zeros(k - 1)
  }

  /** `ds` padded with zeros on the left to at least `width` characters,
      as a zero-flag width (`%016x`) prints it. */
  function PadLeft(ds: string, width: nat): (r: string)
    ensures |r| >= width && |r| >= |ds|
  {
    if |ds| < width then Zeros(width - |ds|) + ds else ds
  }

  /** A run of zero digits has value zero. */
  lemma {:induction false} MagnitudeOfZeros(z: string, radix: nat)
    requires 2 <= radix <= 36
    requires forall i :: 0 <= i < |z| ==> z[i] == '0'
    ensures AllDigits(z, radix) && Magnitude(z, radix) == 0
    decreases |z|
  {
    if |z| > 0 {
      MagnitudeOfZeros(z[..|z| - 1], radix);
    }
  }

  /** Leading zeros do not change the value of a digit string. */
  lemma {:induction false} MagnitudeLeadingZeros(z: string, ds: string, radix: nat)
    requires 2 <= radix <= 36
    requires forall i :: 0 <= i < |z| ==> z[i] == '0'
    requires AllDigits(ds, radix)
    ensures AllDigits(z + ds, radix)
    ensures Magnitude(z + ds, radix) == Magnitude(ds, radix)
    decreases |ds|
  {
    MagnitudeOfZeros(z, radix);
    if |ds| == 0 {
      assert z + ds == z;
    } else {
      var front := ds[..|ds| - 1];
      MagnitudeLeadingZeros(z, front, radix);
      assert (z + ds)[..|z + ds| - 1] == z + front;
    }
  }

  /** The formatted digits of a number, zero-padded to any width, parse back
      to that number with `Long.parseLong`. */
  lemma ParseLongOfPadded(n: nat, radix: nat, width: nat)
    requires 2 <= radix <= 36 && n <= LONG_MAX
    ensures AllDigits(PadLeft(ToDigits(n, radix), width), radix)
    ensures ParseLong(PadLeft(ToDigits(n, radix), width), radix) == Some(n)
  {
    var ds := ToDigits(n, radix);
    var z := if |ds| < width then Zeros(width - |ds|) else [];
    assert PadLeft(ds, width) == z + ds;
    MagnitudeLeadingZeros(z, ds, radix);
    ParseSignedOfDigits(z + ds, radix, LONG_MIN, LONG_MAX);
  }

  /** The decimal digits of a non-negative `int` parse back with `Integer.valueOf`. */
  lemma ParseIntOfDigits(n: nat)
    requires n <= INT_MAX
    ensures ParseInt(ToDigits(n, 10)) == Some(n)
  {
    ParseSignedOfDigits(ToDigits(n, 10), 10, INT_MIN, INT_MAX);
  }
}

=== FILE: java_strings.dfy ===
/** The parts of `java.lang.String` that the code-cache classifier relies on:
    `indexOf`, `startsWith`, `contains`, `split` (with the limit-0 rule that
    drops trailing empty strings), `replace`, and the regex notions of
    "line terminator" and `\s`. */
module JavaStrings {

  /** `s.startsWith(p)`. */
  predicate StartsWith(s: string, p: string) {
    |p| <= |s| && s[..|p|] == p
  }

  /** `pat` occurs in `s` starting at index `k`. */
  predicate OccursAt(s: string, pat: string, k: int) {
    0 <= k && k + |pat| <= |s| && s[k..k + |pat|] == pat
  }

  /** `s.indexOf(pat, from)`: the first occurrence at or after `from`, or -1. */
  function IndexFrom(s: string, pat: string, from: nat): (r: int)
    requires |pat| > 0
    ensures r == -1 || (from <= r && OccursAt(s, pat, r))
    ensures forall k :: from <= k && (r == -1 || k < r) ==> !OccursAt(s, pat, k)
    decreases |s| - from
  {
    if from + |pat| > |s| then -1
    else if s[from..from + |pat|] == pat then from
    else IndexFrom(s, pat, from + 1)
  }

  /** `s.indexOf(pat)`: the first occurrence of `pat` in `s`, or -1 when there is none. */
  function IndexOf(s: string, pat: string): (r: int)
    requires |pat| > 0
    ensures r == -1 <==> forall k :: !OccursAt(s, pat, k)
    ensures r != -1 ==> 0 <= r <= |s| - |pat| && OccursAt(s, pat, r)
    ensures forall k :: 0 <= k < r ==> !OccursAt(s, pat, k)
  {
    IndexFrom(s, pat, 0)
  }

  /** `s.contains(pat)`. */
  predicate Contains(s: string, pat: string)
    requires |pat| > 0
  {
    IndexOf(s, pat) >= 0
  }

  /** The first occurrence of `pat` in `a + pat + b` is right after `a`,
      provided the first character of `pat` does not appear in `a`. */
  lemma IndexOfAfter(a: string, pat: string, b: string)
    requires |pat| > 0 && pat[0] !in a
    ensures IndexOf(a + pat + b, pat) == |a|
  {
    var s := a + pat + b;
    assert s[|a|..|a| + |pat|] == pat;
    assert OccursAt(s, pat, |a|);
    forall k | 0 <= k < |a|
      ensures !OccursAt(s, pat, k)
    {
      assert s[k] == a[k];
    }
  }

  /** The first occurrence of `pat` in `a + pat + b` is right after `a`,
      provided `a` does not contain `pat` and ends in a character that is
      not in `pat`, so that no occurrence can straddle the two. */
  lemma IndexOfAfterFree(a: string, pat: string, b: string)
    requires |pat| > 0 && |a| > 0 && a[|a| - 1] !in pat && IndexOf(a, pat) == -1
    ensures IndexOf(a + pat + b, pat) == |a|
  {
    var s := a + pat + b;
    assert s[|a|..|a| + |pat|] == pat;
    assert OccursAt(s, pat, |a|);
    forall k | 0 <= k < |a|
      ensures !OccursAt(s, pat, k)
    {
      if k + |pat| <= |a| {
        assert s[k..k + |pat|] == a[k..k + |pat|];
        assert !OccursAt(a, pat, k);
      } else if k + |pat| <= |s| {
        assert s[k..k + |pat|][|a| - 1 - k] == a[|a| - 1];
      }
    }
  }

  /** `x + m + [c]` does not contain `pat` when `x` lacks its first
      character, `m` does not contain it, and `c` is not in it. */
  lemma AbsentAcross(x: string, m: string, c: char, pat: string)
    requires |pat| > 0 && pat[0] !in x && IndexOf(m, pat) == -1 && c !in pat
    ensures IndexOf(x + m + [c], pat) == -1
  {
    var s := x + m + [c];
    forall k | 0 <= k
      ensures !OccursAt(s, pat, k)
    {
      if k < |x| {
        assert s[k] == x[k];
      } else if k + |pat| <= |x| + |m| {
        assert s[k..k + |pat|] == m[k - |x|..k - |x| + |pat|];
        assert !OccursAt(m, pat, k - |x|);
      } else if k + |pat| == |s| {
        assert s[|s| - 1] == c;
        assert s[k..k + |pat|][|pat| - 1] == c;
      }
    }
  }

  /** A string lacking some character of `pat` does not contain `pat`. */
  lemma IndexOfMissing(s: string, pat: string, c: char)
    requires |pat| > 0 && c in pat && c !in s
    ensures IndexOf(s, pat) == -1
  {
  }

  /** The text before the first occurrence of `sep` does not contain `sep`. */
  lemma BeforeFirst(s: string, sep: string)
    requires |sep| > 0 && IndexOf(s, sep) >= 0
    ensures IndexOf(s[..IndexOf(s, sep)], sep) == -1
  {
    var k := IndexOf(s, sep);
    var head := s[..k];
    forall j | OccursAt(head, sep, j)
      ensures false
    {
      assert s[j..j + |sep|] == head[j..j + |sep|];
      assert OccursAt(s, sep, j);
    }
  }

  /** A prefix of a string free of `pat` is free of `pat`. */
  lemma AbsentFromPrefix(s: string, pat: string, k: nat)
    requires |pat| > 0 && k <= |s| && IndexOf(s, pat) == -1
    ensures IndexOf(s[..k], pat) == -1
  {
    forall j | OccursAt(s[..k], pat, j)
      ensures false
    {
      assert s[..k][j..j + |pat|] == s[j..j + |pat|];
      assert OccursAt(s, pat, j);
    }
  }

  /** An occurrence in a suffix is an occurrence in the whole string. */
  lemma PresentFromSuffix(s: string, pat: string, a: nat)
    requires |pat| > 0 && a <= |s| && IndexOf(s[a..], pat) >= 0
    ensures IndexOf(s, pat) >= 0
  {
    var k := IndexOf(s[a..], pat);
    assert s[a..][k..k + |pat|] == s[a + k..a + k + |pat|];
    assert OccursAt(s, pat, a + k);
  }

  /** All pieces of `s` between occurrences of `sep`, scanning left to right;
      empty pieces included (the raw material of `String.split`). */
  function Pieces(s: string, sep: string): (r: seq<string>)
    requires |sep| > 0
    ensures |r| >= 1
    ensures IndexOf(s, sep) == -1 ==> r == [s]
    ensures forall i :: 0 <= i < |r| ==> IndexOf(r[i], sep) == -1
    decreases |s|
  {
    var k := IndexOf(s, sep);
    if k < 0 then [s]
    else
      BeforeFirst(s, sep);
      [s[..k]] + Pieces(s[k + |sep|..], sep)
  }

  /** The pieces joined back with `sep` between them. */
  function Join(parts: seq<string>, sep: string): string
    requires |parts| >= 1
  {
    if |parts| == 1 then parts[0] else parts[0] + sep + Join(parts[1..], sep)
  }

  /** Splitting and joining with the same separator gives the string back. */
  lemma {:induction false} JoinPieces(s: string, sep: string)
    requires |sep| > 0
    ensures Join(Pieces(s, sep), sep) == s
    decreases |s|
  {
    var k := IndexOf(s, sep);
    if k >= 0 {
      var tail := s[k + |sep|..];
      JoinPieces(tail, sep);
      PiecesSplitsAt(s, sep);
      SplitAround(s, k, |sep|);
    }
  }

  /** `Pieces` unfolded once, joined. */
  lemma PiecesSplitsAt(s: string, sep: string)
    requires |sep| > 0 && IndexOf(s, sep) >= 0
    ensures Join(Pieces(s, sep), sep) == s[..IndexOf(s, sep)] + sep + Join(Pieces(s[IndexOf(s, sep) + |sep|..], sep), sep)
  {
  }

  /** A string is its three consecutive slices. */
  lemma SplitAround(s: string, k: nat, n: nat)
    requires k + n <= |s|
    ensures s == s[..k] + s[k..k + n] + s[k + n..]
  {
  }

  /** `Join` taken apart at part `k`. */
  lemma JoinUnfold(parts: seq<string>, sep: string, k: nat)
    requires k + 1 < |parts|
    ensures Join(parts[k..], sep) == parts[k] + sep + Join(parts[k + 1..], sep)
  {
    assert parts[k..][1..] == parts[k + 1..];
  }

  /** One step of the converse: a leading piece free of `sep[0]` is split off. */
  lemma PiecesCons(a: string, sep: string, b: string)
    requires |sep| > 0 && sep[0] !in a
    ensures Pieces(a + sep + b, sep) == [a] + Pieces(b, sep)
  {
    var s := a + sep + b;
    IndexOfAfter(a, sep, b);
    assert s[..|a|] == a;
    assert s[|a| + |sep|..] == b;
  }

  /** Joining pieces that do not contain the separator's first character and
      splitting again gives the same pieces back. */
  lemma {:induction false} PiecesJoin(parts: seq<string>, sep: string)
    requires |sep| > 0 && |parts| >= 1
    requires forall i :: 0 <= i < |parts| ==> sep[0] !in parts[i]
    ensures Pieces(Join(parts, sep), sep) == parts
    decreases |parts|
  {
    if |parts| == 1 {
      IndexOfMissing(parts[0], sep, sep[0]);
    } else {
      PiecesJoin(parts[1..], sep);
      PiecesCons(parts[0], sep, Join(parts[1..], sep));
    }
  }

  /** `xs` without its trailing empty strings. */
  function DropTrailingEmpty(xs: seq<string>): (r: seq<string>)
    ensures |r| <= |xs| && r == xs[..|r|]
    ensures |r| > 0 ==> r[|r| - 1] != ""
    ensures forall i :: |r| <= i < |xs| ==> xs[i] == ""
  {
    if |xs| == 0 then []
    else if xs[|xs| - 1] == "" then DropTrailingEmpty(xs[..|xs| - 1])
    else xs
  }

  /** `s.split(sep)` for a separator regex that matches exactly the literal
      `sep`: the pieces between occurrences, with trailing empty pieces
      removed; `[s]` itself when `sep` does not occur. */
  function Split(s: string, sep: string): (r: seq<string>)
    requires |sep| > 0
    ensures |r| <= |Pieces(s, sep)|
    ensures r == Pieces(s, sep)[..|r|]
    ensures forall i :: |r| <= i < |Pieces(s, sep)| ==> Pieces(s, sep)[i] == ""
    ensures IndexOf(s, sep) >= 0 ==> |r| == 0 || r[|r| - 1] != ""
    ensures IndexOf(s, sep) == -1 ==> r == [s]
  {
    if IndexOf(s, sep) < 0 then [s] else DropTrailingEmpty(Pieces(s, sep))
  }

  /** Splitting a join of parts free of the separator's first character,
      the last one not empty, gives the parts back. */
  lemma SplitJoin(parts: seq<string>, sep: string)
    requires |sep| > 0 && |parts| >= 1 && parts[|parts| - 1] != ""
    requires forall i :: 0 <= i < |parts| ==> sep[0] !in parts[i]
    ensures Split(Join(parts, sep), sep) == parts
  {
    PiecesJoin(parts, sep);
  }

  /** `s.replace(target, replacement)`: every non-overlapping occurrence of
      `target`, left to right, replaced. */
  function Replace(s: string, target: string, replacement: string): (r: string)
    requires |target| > 0
    ensures IndexOf(s, target) == -1 ==> r == s
  {
    Join(Pieces(s, target), replacement)
  }

  /** A Java regex line terminator, which `.` does not match. */
  predicate IsLineTerminator(c: char) {
    c == '\n' || c == '\r' || c == '\U{0085}' || c == '\U{2028}' || c == '\U{2029}'
  }

  /** Every character of `s` is matched by the regex `.`. */
  predicate NoLineTerminator(s: string) {
    forall i :: 0 <= i < |s| ==> !IsLineTerminator(s[i])
  }

  /** A concatenation is free of line terminators when both halves are. */
  lemma NoLineTerminatorAppend(a: string, b: string)
    requires NoLineTerminator(a) && NoLineTerminator(b)
    ensures NoLineTerminator(a + b)
  {
    forall i | 0 <= i < |a + b|
      ensures !IsLineTerminator((a + b)[i])
    {
      if i >= |a| {
        assert (a + b)[i] == b[i - |a|];
      }
    }
  }

  /** Parts and separator free of line terminators join into a string free of them. */
  lemma {:induction false} NoLineTerminatorJoin(parts: seq<string>, sep: string)
    requires |parts| >= 1 && NoLineTerminator(sep)
    requires forall i :: 0 <= i < |parts| ==> NoLineTerminator(parts[i])
    ensures NoLineTerminator(Join(parts, sep))
    decreases |parts|
  {
    if |parts| > 1 {
      NoLineTerminatorJoin(parts[1..], sep);
      NoLineTerminatorAppend(parts[0], sep);
      NoLineTerminatorAppend(parts[0] + sep, Join(parts[1..], sep));
    }
  }

  /** A character absent from the parts and the separator is absent from the join. */
  lemma {:induction false} AbsentFromJoin(parts: seq<string>, sep: string, c: char)
    requires |parts| >= 1 && c !in sep
    requires forall i :: 0 <= i < |parts| ==> c !in parts[i]
    ensures c !in Join(parts, sep)
    decreases |parts|
  {
    if |parts| > 1 {
      AbsentFromJoin(parts[1..], sep, c);
    }
  }

  /** The regex class `\s`: space, tab, newline, vertical tab, form feed, carriage return. */
  predicate IsWhitespace(c: char) {
    c == ' ' || c == '\t' || c == '\n' || c == '\U{000B}' || c == '\U{000C}' || c == '\r'
  }

  /** Index of the first `\s` character at or after `from`, or `|s|`. */
  function NextWhitespace(s: string, from: nat): (r: nat)
    requires from <= |s|
    ensures from <= r <= |s|
    ensures r < |s| ==> IsWhitespace(s[r])
    ensures forall k :: from <= k < r ==> !IsWhitespace(s[k])
    decreases |s| - from
  {
    if from == |s| || IsWhitespace(s[from]) then from else NextWhitespace(s, from + 1)
  }

  /** End of the run of `\s` characters starting at `from`. */
  function RunEnd(s: string, from: nat): (r: nat)
    requires from <= |s|
    ensures from <= r <= |s|
    ensures r < |s| ==> !IsWhitespace(s[r])
    ensures forall k :: from <= k < r ==> IsWhitespace(s[k])
    decreases |s| - from
  {
    if from == |s| || !IsWhitespace(s[from]) then from else RunEnd(s, from + 1)
  }

  /** The characters of `s` that are not `\s`, in order. */
  function NonWhitespace(s: string): string {
    if |s| == 0 then []
    else (if IsWhitespace(s[0]) then [] else [s[0]]) + NonWhitespace(s[1..])
  }

  /** `NonWhitespace` distributes over concatenation. */
  lemma {:induction false} NonWhitespaceAppend(a: string, b: string)
    ensures NonWhitespace(a + b) == NonWhitespace(a) + NonWhitespace(b)
    decreases |a|
  {
    if |a| > 0 {
      var h := if IsWhitespace(a[0]) then [] else [a[0]];
      assert (a + b)[0] == a[0];
      assert (a + b)[1..] == a[1..] + b;
      NonWhitespaceAppend(a[1..], b);
      calc {
        NonWhitespace(a + b);
        h + NonWhitespace(a[1..] + b);
        h + (NonWhitespace(a[1..]) + NonWhitespace(b));
        (h + NonWhitespace(a[1..])) + NonWhitespace(b);
        NonWhitespace(a) + NonWhitespace(b);
      }
    } else {
      assert a + b == b;
    }
  }

  /** A string of whitespace only has no other characters. */
  lemma {:induction false} NonWhitespaceOfRun(s: string)
    requires forall k :: 0 <= k < |s| ==> IsWhitespace(s[k])
    ensures NonWhitespace(s) == []
    decreases |s|
  {
    if |s| > 0 {
      NonWhitespaceOfRun(s[1..]);
    }
  }

  /** A whitespace-free string is kept whole. */
  lemma {:induction false} NonWhitespaceOfWord(s: string)
    requires forall k :: 0 <= k < |s| ==> !IsWhitespace(s[k])
    ensures NonWhitespace(s) == s
    decreases |s|
  {
    if |s| > 0 {
      NonWhitespaceOfWord(s[1..]);
    }
  }

  /** Concatenation of a sequence of strings. */
  function Flatten(xs: seq<string>): string {
    if |xs| == 0 then [] else xs[0] + Flatten(xs[1..])
  }

  /** Splitting `s` at a whitespace run `s[k..j]` keeps the non-whitespace
      characters: those of the word before it, then those after it. */
  lemma NonWhitespaceAround(s: string, k: nat, j: nat)
    requires k <= j <= |s|
    requires forall i :: 0 <= i < k ==> !IsWhitespace(s[i])
    requires forall i :: k <= i < j ==> IsWhitespace(s[i])
    ensures NonWhitespace(s) == s[..k] + NonWhitespace(s[j..])
  {
    NonWhitespaceThreeWay(s, k, j);
    WordSlice(s, k);
    RunSlice(s, k, j);
    assert s[..k] + [] == s[..k];
  }

  /** `NonWhitespace` distributes over three consecutive slices. */
  lemma NonWhitespaceThreeWay(s: string, k: nat, j: nat)
    requires k <= j <= |s|
    ensures NonWhitespace(s) == NonWhitespace(s[..k]) + NonWhitespace(s[k..j]) + NonWhitespace(s[j..])
  {
    SplitAround(s, k, j - k);
    NonWhitespaceAppend(s[..k] + s[k..j], s[j..]);
    NonWhitespaceAppend(s[..k], s[k..j]);
  }

  /** A whitespace-free prefix is kept whole. */
  lemma WordSlice(s: string, k: nat)
    requires k <= |s|
    requires forall i :: 0 <= i < k ==> !IsWhitespace(s[i])
    ensures NonWhitespace(s[..k]) == s[..k]
  {
    NonWhitespaceOfWord(s[..k]);
  }

  /** A whitespace run is dropped entirely. */
  lemma RunSlice(s: string, k: nat, j: nat)
    requires k <= j <= |s|
    requires forall i :: k <= i < j ==> IsWhitespace(s[i])
    ensures NonWhitespace(s[k..j]) == []
  {
    var run := s[k..j];
    forall i | 0 <= i < |run| ensures IsWhitespace(run[i]) {
      assert run[i] == s[k + i];
    }
    NonWhitespaceOfRun(run);
  }

  /** The pieces of `s` between maximal runs of `\s`; a leading run gives a
      leading empty piece (the raw material of `s.split("\\s+")`). The pieces
      hold no whitespace and, together, every other character in order. */
  function WsPieces(s: string): (r: seq<string>)
    ensures |r| >= 1
    ensures NextWhitespace(s, 0) == |s| ==> r == [s]
    ensures forall i, k :: 0 <= i < |r| && 0 <= k < |r[i]| ==> !IsWhitespace(r[i][k])
    ensures Flatten(r) == NonWhitespace(s)
    decreases |s|
  {
    var k := NextWhitespace(s, 0);
    if k == |s| then
      NonWhitespaceOfWord(s);
      [s]
    else
      var j := RunEnd(s, k);
      NonWhitespaceAround(s, k, j);
      [s[..k]] + WsPieces(s[j..])
  }

  /** A word free of `\s`, one space and a remainder that does not start
      with `\s`: the word is split off. */
  lemma WsPiecesCons(a: string, b: string)
    requires forall k :: 0 <= k < |a| ==> !IsWhitespace(a[k])
    requires |b| > 0 && !IsWhitespace(b[0])
    ensures WsPieces(a + " " + b) == [a] + WsPieces(b)
  {
    var s := a + " " + b;
    assert NextWhitespace(s, 0) == |a| by {
      assert forall k :: 0 <= k < |a| ==> s[k] == a[k];
      assert IsWhitespace(s[|a|]);
    }
    assert RunEnd(s, |a|) == |a| + 1 by {
      assert s[|a| + 1] == b[0];
    }
    assert s[..|a|] == a;
    assert s[|a| + 1..] == b;
  }

  /** A non-empty run of `\s` characters, the separator `split("\\s+")`
      removes. */
  predicate IsRun(w: string) {
    |w| > 0 && forall k :: 0 <= k < |w| ==> IsWhitespace(w[k])
  }

  /** A string free of `\s`. */
  predicate IsWord(w: string) {
    forall k :: 0 <= k < |w| ==> !IsWhitespace(w[k])
  }

  /** `pieces[0] + runs[0] + pieces[1] + … + runs[n-1] + pieces[n]`. */
  function Weave(pieces: seq<string>, runs: seq<string>): string
    requires |pieces| == |runs| + 1
    decreases |runs|
  {
    if |runs| == 0 then pieces[0]
    else pieces[0] + runs[0] + Weave(pieces[1..], runs[1..])
  }

  /** The maximal runs of `\s` in `s`, left to right: the separators
      between the pieces of `WsPieces(s)`. */
  function WsRuns(s: string): (r: seq<string>)
    ensures |r| + 1 == |WsPieces(s)|
    ensures forall i :: 0 <= i < |r| ==> IsRun(r[i])
    decreases |s|
  {
    var k := NextWhitespace(s, 0);
    if k == |s| then []
    else
      var j := RunEnd(s, k);
      assert IsRun(s[k..j]) by {
        forall i | 0 <= i < j - k ensures IsWhitespace(s[k..j][i]) {
          assert s[k..j][i] == s[k + i];
        }
      }
      [s[k..j]] + WsRuns(s[j..])
  }

  /** Where `WsPieces` breaks: `s` is its pieces woven with the maximal
      whitespace runs, and only the first and the last piece can be empty
      (a leading or a trailing run). */
  lemma {:induction false} WsPiecesRebuild(s: string)
    ensures Weave(WsPieces(s), WsRuns(s)) == s
    ensures forall i :: 0 < i < |WsPieces(s)| - 1 ==> WsPieces(s)[i] != ""
    ensures |s| > 0 && !IsWhitespace(s[0]) ==> WsPieces(s)[0] != ""
    decreases |s|
  {
    var k := NextWhitespace(s, 0);
    if k < |s| {
      var j := RunEnd(s, k);
      var rest := s[j..];
      var ps, rs := WsPieces(rest), WsRuns(rest);
      WsPiecesRebuild(rest);
      assert WsPieces(s) == [s[..k]] + ps;
      assert WsRuns(s) == [s[k..j]] + rs;
      assert Weave(WsPieces(s), WsRuns(s)) == s by {
        assert ([s[..k]] + ps)[1..] == ps && ([s[k..j]] + rs)[1..] == rs;
        SplitAround(s, k, j - k);
      }
      forall i | 0 < i < |WsPieces(s)| - 1 ensures WsPieces(s)[i] != "" {
        assert WsPieces(s)[i] == ps[i - 1];
        if i == 1 {
          assert |rest| > 0 && rest[0] == s[j];
        }
      }
    }
  }

  /** The converse: any weaving of `\s`-free pieces with non-empty runs,
      whose inner pieces are non-empty, is the one `WsPieces` finds. */
  lemma {:induction false} WsPiecesUnique(s: string, pieces: seq<string>, runs: seq<string>)
    requires |pieces| == |runs| + 1
    requires forall i :: 0 <= i < |pieces| ==> IsWord(pieces[i])
    requires forall i :: 0 <= i < |runs| ==> IsRun(runs[i])
    requires forall i :: 0 < i < |pieces| - 1 ==> pieces[i] != ""
    requires Weave(pieces, runs) == s
    ensures WsPieces(s) == pieces && WsRuns(s) == runs
    decreases |runs|
  {
    var p := pieces[0];
    if |runs| == 0 {
      assert IsWord(p);
      assert NextWhitespace(s, 0) == |s|;
    } else {
      var w := runs[0];
      var rest := Weave(pieces[1..], runs[1..]);
      assert s == p + w + rest;
      assert NextWhitespace(s, 0) == |p| by {
        assert IsWord(p) && IsRun(w);
        assert s[|p|] == w[0];
        forall i | 0 <= i < |p| ensures !IsWhitespace(s[i]) {
          assert s[i] == p[i];
        }
      }
      assert RunEnd(s, |p|) == |p| + |w| by {
        assert IsRun(w);
        forall i | |p| <= i < |p| + |w| ensures IsWhitespace(s[i]) {
          assert s[i] == w[i - |p|];
        }
        if |rest| > 0 {
          var q := pieces[1];
          assert IsWord(q);
          if |runs| > 1 {
            assert q != "";
            assert rest == q + runs[1] + Weave(pieces[1..][1..], runs[1..][1..]);
          }
          assert rest[0] == q[0];
          assert s[|p| + |w|] == rest[0];
        }
      }
      assert s[..|p|] == p && s[|p|..|p| + |w|] == w && s[|p| + |w|..] == rest;
      WsPiecesUnique(rest, pieces[1..], runs[1..]);
      assert pieces == [p] + pieces[1..] && runs == [w] + runs[1..];
    }
  }

  /** `s.split("\\s+")`. */
  function SplitWhitespace(s: string): (r: seq<string>)
    ensures |r| <= |WsPieces(s)|
    ensures r == WsPieces(s)[..|r|]
    ensures forall i :: |r| <= i < |WsPieces(s)| ==> WsPieces(s)[i] == ""
    ensures NextWhitespace(s, 0) < |s| ==> |r| == 0 || r[|r| - 1] != ""
    ensures NextWhitespace(s, 0) == |s| ==> r == [s]
  {
    if NextWhitespace(s, 0) == |s| then [s] else DropTrailingEmpty(WsPieces(s))
  }
}

=== FILE: options.dfy ===
/** Optional values, used wherever the modelled Java code throws an exception
    that the surrounding code catches (a `None` is "this step threw"). */
module Options {

  datatype Option<+T> = None | Some(value: T)
}

=== FILE: output_parser.dfy ===
/** The text-processing part of `runVM`: the captured output of
    `Compiler.codecache` and `Compiler.codelist`, one string per line, folded
    into a `CodeHeap`. Two rules are applied to every line, in this order: a
    two-line rule for a segment header followed by its bounds line, and a
    one-line rule for a compiled-method record. An exception anywhere in
    the loop is caught outside it, so parsing stops and the table built so
    far is returned; a level-4 record outside every range raises an
    `AssertionError`, which is not caught. */
module OutputParser {
  import opened Options
  import opened JavaStrings
  import opened JavaNumbers
  import opened CodeHeap

  /** `line.matches("^CodeHeap '.*") || line.contains("Cache: size=")`. */
  predicate IsHeaderLine(line: string) {
    (StartsWith(line, "CodeHeap '") && NoLineTerminator(line)) || Contains(line, "Cache: size=")
  }

  predicate IsAsciiDigit(c: char) {
    '0' <= c <= '9'
  }

  /** `line[a..b]` is all ASCII digits. */
  predicate DigitsBetween(line: string, a: nat, b: nat)
    requires a <= b <= |line|
  {
    forall k :: a <= k < b ==> IsAsciiDigit(line[k])
  }

  /** `line[a..b]` is all spaces. */
  predicate SpacesBetween(line: string, a: nat, b: nat)
    requires a <= b <= |line|
  {
    forall k :: a <= k < b ==> line[k] == ' '
  }

  /** `[0-9]+ +[0-9]+ +[0-9]` matches `line[i..m + 1]`, where the first run
      of digits is reduced to its last digit `line[i]` and the third to its
      first digit `line[m]` (the surrounding `.*` absorb the rest). */
  predicate TripleAt(line: string, i: nat, m: nat)
    requires i < m < |line|
  {
    exists j, l | i + 1 < j < l < m ::
      && IsAsciiDigit(line[i])
      && SpacesBetween(line, i + 1, j)
      && DigitsBetween(line, j, l)
      && SpacesBetween(line, l, m)
      && IsAsciiDigit(line[m])
  }

  /** `line.matches(".*[0-9]+ +[0-9]+ +[0-9]+.*[0x.*].*")`: three numbers
      separated by spaces, followed later by one of the characters `0`, `x`,
      `.`, `*` (the bracket is a character class), and no line terminator,
      which `.` does not match. */
  predicate IsMethodLine(line: string) {
    && NoLineTerminator(line)
    && exists i, m, n | 0 <= i < m < n < |line| :: TripleAt(line, i, m) && line[n] in "0x.*"
  }

  /** No digit of `line` is directly followed by a space; header lines of
      `Compiler.codecache` are of this kind (`size=120028Kb used=373Kb ...`). */
  predicate NoDigitBeforeSpace(line: string) {
    forall k :: 0 <= k < |line| - 1 && IsAsciiDigit(line[k]) ==> line[k + 1] != ' '
  }

  lemma NoDigitBeforeSpaceAppend(a: string, b: string)
    requires NoDigitBeforeSpace(a) && NoDigitBeforeSpace(b)
    requires |a| == 0 || |b| == 0 || !IsAsciiDigit(a[|a| - 1]) || b[0] != ' '
    ensures NoDigitBeforeSpace(a + b)
  {
    var s := a + b;
    forall k | 0 <= k < |s| - 1 && IsAsciiDigit(s[k])
      ensures s[k + 1] != ' '
    {
      if k + 1 < |a| {
        assert s[k] == a[k] && s[k + 1] == a[k + 1];
      } else if k + 1 == |a| {
        assert s[k] == a[k] && s[k + 1] == b[0];
      } else {
        assert s[k] == b[k - |a|] && s[k + 1] == b[k + 1 - |a|];
      }
    }
  }

  /** Such a line cannot match the method-line pattern: three
      space-separated numbers need a digit followed by a space. */
  lemma NotMethodLine(line: string)
    requires NoDigitBeforeSpace(line)
    ensures !IsMethodLine(line)
  {
    forall i: nat, m: nat | i < m < |line|
      ensures !TripleAt(line, i, m)
    {
      if IsAsciiDigit(line[i]) {
        assert line[i + 1] != ' ';
      }
    }
  }

  /** Three space-separated runs of digits followed, somewhere in the rest,
      by one of `0`, `x`, `.`, `*` match the method-line pattern. */
  lemma ThreeNumbersMatch(a: string, b: string, c: string, rest: string, k: nat)
    requires |a| > 0 && |b| > 0 && |c| > 0
    requires IsAsciiDigit(a[|a| - 1]) && IsAsciiDigit(c[0])
    requires forall t :: 0 <= t < |b| ==> IsAsciiDigit(b[t])
    requires k < |rest| && rest[k] in "0x.*"
    requires NoLineTerminator(a + " " + b + " " + c + rest)
    ensures IsMethodLine(a + " " + b + " " + c + rest)
  {
    var line := a + " " + b + " " + c + rest;
    var i, j := |a| - 1, |a| + 1;
    var l := j + |b|;
    var m := l + 1;
    var n := m + |c| + k;
    assert line[i] == a[i];
    assert line[|a|] == ' ';
    forall t | j <= t < l
      ensures IsAsciiDigit(line[t])
    {
      assert line[t] == b[t - j];
    }
    assert line[l] == ' ';
    assert line[m] == c[0];
    assert line[n] == rest[k];
    assert DigitsBetween(line, j, l);
    assert TripleAt(line, i, m);
  }

  /** The segment name on a header line: the text between the first and the
      second single quote if that text, or anything after it, is not made of
      quotes only; otherwise the text before the first `": "`. `None` where
      Java's `substring` throws. */
  function HeaderName(line: string): (r: Option<string>)
    ensures |Split(line, "'")| > 1 ==> r == Some(Pieces(line, "'")[1])
    ensures |Split(line, "'")| <= 1 && r.Some? ==>
              StartsWith(line, r.value + ": ") && |r.value| == IndexOf(line, ": ")
    ensures |Split(line, "'")| <= 1 && IndexOf(line, ": ") >= 0 ==> r.Some?
  {
    var parts := Split(line, "'");
    if |parts| > 1 then Some(parts[1])
    else
      var k := IndexOf(line, ": ");
      if k < 0 then None
      else
        assert line[..k + 2] == line[..k] + ": " by {
          assert line[k..k + 2] == ": ";
        }
        Some(line[..k])
  }

  /** The bounds line `bounds [start, mid, end]`: the text after the first
      `[` (all of it when there is none) up to the next `]`, split at
      `", "`; the first and third fields, with every `0x` removed, read as
      hexadecimal `long`s. The middle field is never read. */
  function ParseBounds(bounds: string): (r: Option<(Long, Long)>)
    ensures r.Some? ==> Contains(bounds, "]")
  {
    var afterOpen := bounds[IndexOf(bounds, "[") + 1..];
    var close := IndexOf(afterOpen, "]");
    if close < 0 then None
    else
      PresentFromSuffix(bounds, "]", IndexOf(bounds, "[") + 1);
      var addr := Split(afterOpen[..close], ", ");
      if |addr| < 3 then None
      else
        match (ParseLong(Replace(addr[0], "0x", ""), 16), ParseLong(Replace(addr[2], "0x", ""), 16))
        case (Some(start), Some(end)) => Some((start, end))
        case _ => None
  }

  /** What the one-line rule extracts from a compiled-method record. */
  datatype MethodRecord = MethodRecord(addr: Long, name: string, level: int)

  /** The one-line rule's extraction: the address is the hexadecimal text
      after the first `[0x` up to the next `,`; the name is the fourth
      field of `split(" ")` cut before its first `(`; the level is the
      second field of `split("\\s+")` read by `Integer.valueOf`. `None`
      where any of these steps throws. */
  function ParseMethodRecord(line: string): (r: Option<MethodRecord>)
    ensures r.Some? ==> IndexOf(r.value.name, "(") == -1
    ensures r.Some? ==> IndexOf(r.value.name, " ") == -1
    ensures r.Some? ==> INT_MIN <= r.value.level <= INT_MAX
  {
    var from := IndexOf(line, "[0x") + 3;
    if from > |line| then None
    else
      var tail := line[from..];
      var comma := IndexOf(tail, ",");
      if comma < 0 then None
      else
        match ParseLong(tail[..comma], 16)
        case None => None
        case Some(addr) =>
          var fields := Split(line, " ");
          if |fields| < 4 then None
          else
            var paren := IndexOf(fields[3], "(");
            if paren < 0 then None
            else
              var words := SplitWhitespace(line);
              if |words| < 2 then None
              else
                match ParseInt(words[1])
                case None => None
                case Some(level) =>
                  assert fields[3] == Pieces(line, " ")[3];
                  BeforeFirst(fields[3], "(");
                  AbsentFromPrefix(fields[3], " ", paren);
                  Some(MethodRecord(addr, fields[3][..paren], level))
  }

  /** The three extractions succeed with `addr`, `name` and `level`, so
      the record is exactly these. */
  lemma ParsedRecord(line: string, addr: Long, name: string, level: int)
    requires IndexOf(line, "[0x") + 3 <= |line|
    requires var tail := line[IndexOf(line, "[0x") + 3..];
             IndexOf(tail, ",") >= 0 && ParseLong(tail[..IndexOf(tail, ",")], 16) == Some(addr)
    requires |Split(line, " ")| >= 4
    requires IndexOf(Split(line, " ")[3], "(") == |name| && Split(line, " ")[3][..|name|] == name
    requires |SplitWhitespace(line)| >= 2 && ParseInt(SplitWhitespace(line)[1]) == Some(level)
    ensures ParseMethodRecord(line) == Some(MethodRecord(addr, name, level))
  {
  }

  /** The compilation level whose records are classified (C2). */
  const CLASSIFIED_LEVEL: int := 4

  /** Every list of `h` is a prefix of the same list of `g`. */
  predicate Grows(h: Heap, g: Heap) {
    forall s :: |MethodsOf(h, s)| <= |MethodsOf(g, s)| && MethodsOf(g, s)[..|MethodsOf(h, s)|] == MethodsOf(h, s)
  }

  lemma GrowsTransitive(a: Heap, b: Heap, c: Heap)
    requires Grows(a, b) && Grows(b, c)
    ensures Grows(a, c)
  {
    forall s
      ensures |MethodsOf(a, s)| <= |MethodsOf(c, s)| && MethodsOf(c, s)[..|MethodsOf(a, s)|] == MethodsOf(a, s)
    {
      var x, y, z := MethodsOf(a, s), MethodsOf(b, s), MethodsOf(c, s);
      assert z[..|x|] == z[..|y|][..|x|];
    }
  }

  /** The two-line rule: the header's segment name and the bounds from the
      line after it, stored with `addSegment`. `None` where Java throws
      (no segment name, no following line, malformed bounds). */
  function HeaderRule(h: Heap, line: string, following: Option<string>): (r: Option<Heap>)
    ensures r.Some? <==>
              HeaderName(line).Some? && following.Some? && ParseBounds(following.value).Some?
    ensures r.Some? ==>
              var (start, end) := ParseBounds(following.value).value;
              r.value == AddSegment(h, HeaderName(line).value, start, end)
    ensures r.Some? ==> forall s :: MethodsOf(r.value, s) == MethodsOf(h, s)
  {
    match HeaderName(line)
    case None => None
    case Some(name) =>
      if following.None? then None
      else
        match ParseBounds(following.value)
        case None => None
        case Some((start, end)) => Some(AddSegment(h, name, start, end))
  }

  /** The outcome of one iteration of the parsing loop. */
  datatype StepResult =
    | Next(heap: Heap, consumed: nat)   // continue after `consumed` lines
    | Halt(heap: Heap)                  // an exception: the loop ends
    | Unplaced(name: string)            // the AssertionError for an unclassifiable record

  /** What the one-line rule does with a parsed record: only level 4 is
      passed to `addMethod`, and its refusal is the `AssertionError`. */
  function Classify(h: Heap, rec: MethodRecord, consumed: nat): (r: StepResult)
    ensures !r.Halt?
    ensures r.Next? ==> r.consumed == consumed && Grows(h, r.heap)
    ensures rec.level != CLASSIFIED_LEVEL ==> r == Next(h, consumed)
    ensures rec.level == CLASSIFIED_LEVEL && AddMethod(h, rec.addr, rec.name).ok ==>
              r == Next(AddMethod(h, rec.addr, rec.name).heap, consumed)
    ensures r.Unplaced? <==> rec.level == CLASSIFIED_LEVEL && !AddMethod(h, rec.addr, rec.name).ok
    ensures r.Unplaced? ==> r.name == rec.name
  {
    if rec.level != CLASSIFIED_LEVEL then Next(h, consumed)
    else
      var added := AddMethod(h, rec.addr, rec.name);
      if added.ok then
        assert Grows(h, added.heap) by {
          forall s ensures MethodsOf(added.heap, s)[..|MethodsOf(h, s)|] == MethodsOf(h, s) {
            assert MethodsOf(added.heap, s) == MethodsOf(h, s)
                || MethodsOf(added.heap, s) == MethodsOf(h, s) + [rec.name];
          }
        }
        Next(added.heap, consumed)
      else Unplaced(rec.name)
  }

  /** `line` passes the method pattern and parses to a level-4 record named `name`. */
  predicate IsClassifiedRecord(line: string, name: string) {
    && IsMethodLine(line)
    && ParseMethodRecord(line).Some?
    && ParseMethodRecord(line).value.level == CLASSIFIED_LEVEL
    && ParseMethodRecord(line).value.name == name
  }

  /** The one-line rule on `line`, from table `h`, continuing after
      `consumed` lines when the loop goes on. */
  function RecordRule(h: Heap, line: string, consumed: nat): (r: StepResult)
    ensures r.Next? ==> r.consumed == consumed
    ensures r.Next? || r.Halt? ==> Grows(h, r.heap)
    ensures !IsMethodLine(line) ==> r == Next(h, consumed)
    ensures r.Halt? <==> IsMethodLine(line) && ParseMethodRecord(line).None?
    ensures r.Halt? ==> r.heap == h
    ensures IsMethodLine(line) && ParseMethodRecord(line).Some? ==>
              r == Classify(h, ParseMethodRecord(line).value, consumed)
    ensures r.Unplaced? ==> IsClassifiedRecord(line, r.name)
  {
    if !IsMethodLine(line) then Next(h, consumed)
    else
      match ParseMethodRecord(line)
      case None => Halt(h)
      case Some(rec) => Classify(h, rec, consumed)
  }

  /** One iteration of the loop on `line`, with `following` the next line if
      there is one: first the two-line rule if `line` is a header, then the
      one-line rule on the same `line`. */
  function Step(h: Heap, line: string, following: Option<string>): (r: StepResult)
    ensures r.Next? ==> r.consumed == (if IsHeaderLine(line) then 2 else 1)
    ensures r.Next? && IsHeaderLine(line) ==> following.Some?
    ensures r.Next? || r.Halt? ==> Grows(h, r.heap)
    ensures !IsHeaderLine(line) ==> r == RecordRule(h, line, 1)
    ensures IsHeaderLine(line) && HeaderRule(h, line, following).None? ==> r == Halt(h)
    ensures IsHeaderLine(line) && HeaderRule(h, line, following).Some? ==>
              r == RecordRule(HeaderRule(h, line, following).value, line, 2)
    ensures r.Unplaced? ==> IsClassifiedRecord(line, r.name)
  {
    if !IsHeaderLine(line) then RecordRule(h, line, 1)
    else
      match HeaderRule(h, line, following)
      case None => Halt(h)
      case Some(h1) =>
        assert Grows(h, h1) by {
          forall s ensures MethodsOf(h1, s)[..|MethodsOf(h, s)|] == MethodsOf(h, s) {
            assert MethodsOf(h1, s) == MethodsOf(h, s);
          }
        }
        var r := RecordRule(h1, line, 2);
        if r.Unplaced? then r else GrowsTransitive(h, h1, r.heap); r
  }

  /** What `runVM` ends with: the loop ran to the end of the output, or an
      exception stopped it (Java returns the table in both cases), or the
      `AssertionError` for a level-4 record outside every range escaped. */
  datatype RunResult =
    | Finished(heap: Heap)
    | Stopped(heap: Heap)
    | NotInAnySegment(name: string)

  /** The line after the first one, which the two-line rule reads. */
  function Following(lines: seq<string>): Option<string> {
    if |lines| > 1 then Some(lines[1]) else None
  }

  /** The loop of `runVM` over the remaining `lines`, from table `h`. */
  function Run(h: Heap, lines: seq<string>): (r: RunResult)
    ensures !r.NotInAnySegment? ==> Grows(h, r.heap)
    decreases |lines|
  {
    if |lines| == 0 then Finished(h)
    else
      match Step(h, lines[0], Following(lines))
      case Next(h1, consumed) =>
        var r := Run(h1, lines[consumed..]);
        if r.NotInAnySegment? then r else GrowsTransitive(h, h1, r.heap); r
      case Halt(h1) => Stopped(h1)
      case Unplaced(name) => NotInAnySegment(name)
  }

  /** `runVM` on the captured output, starting from a fresh table. */
  function RunVM(lines: seq<string>): RunResult {
    Run(Empty, lines)
  }

  /** The line after a line that is not a header never matters. */
  lemma StepIgnoresFollowing(h: Heap, line: string, following: Option<string>)
    requires !Step(h, line, None).Halt?
    ensures Step(h, line, following) == Step(h, line, None)
  {
  }

  /** The first step over `pre` is the first step over any extension of
      `pre` unless it was stopped by a missing line. */
  lemma StepOnPrefix(h: Heap, pre: seq<string>, post: seq<string>)
    requires |pre| > 0 && !Step(h, pre[0], Following(pre)).Halt?
    ensures (pre + post)[0] == pre[0]
    ensures Step(h, (pre + post)[0], Following(pre + post)) == Step(h, pre[0], Following(pre))
  {
    if |pre| == 1 {
      StepIgnoresFollowing(h, pre[0], Following(pre + post));
    }
  }

  lemma SliceAppend(a: seq<string>, b: seq<string>, k: nat)
    requires k <= |a|
    ensures (a + b)[k..] == a[k..] + b
  {
  }

  /** One iteration of the loop that goes on. */
  lemma RunNext(h: Heap, lines: seq<string>)
    requires |lines| > 0 && Step(h, lines[0], Following(lines)).Next?
    ensures Step(h, lines[0], Following(lines)).consumed <= |lines|
    ensures Run(h, lines) == Run(Step(h, lines[0], Following(lines)).heap, lines[Step(h, lines[0], Following(lines)).consumed..])
  {
  }

  /** Parsing is incremental: output that the loop read to its end without
      failing leaves the table that parsing the rest starts from. */
  lemma {:induction false} RunAppend(h: Heap, pre: seq<string>, post: seq<string>)
    requires Run(h, pre).Finished?
    ensures Run(h, pre + post) == Run(Run(h, pre).heap, post)
    decreases |pre|
  {
    if |pre| == 0 {
      assert pre + post == post;
    } else {
      var step := Step(h, pre[0], Following(pre));
      RunNext(h, pre);
      var rest := pre[step.consumed..];
      assert Run(h, pre + post) == Run(step.heap, rest + post) by {
        StepOnPrefix(h, pre, post);
        RunNext(h, pre + post);
        SliceAppend(pre, post, step.consumed);
      }
      RunAppend(step.heap, rest, post);
    }
  }

  /** An escaped `AssertionError` is not undone by more output. */
  lemma {:induction false} UnplacedIsFinal(h: Heap, pre: seq<string>, post: seq<string>)
    requires Run(h, pre).NotInAnySegment?
    ensures Run(h, pre + post) == Run(h, pre)
    decreases |pre|
  {
    var step := Step(h, pre[0], Following(pre));
    StepOnPrefix(h, pre, post);
    if step.Next? {
      RunNext(h, pre);
      var rest := pre[step.consumed..];
      assert Run(h, pre + post) == Run(step.heap, rest + post) by {
        RunNext(h, pre + post);
        SliceAppend(pre, post, step.consumed);
      }
      UnplacedIsFinal(step.heap, rest, post);
    }
  }

  /** An escaped `AssertionError` names a level-4 record of the output that
      passed the method pattern. */
  lemma {:induction false} UnplacedHasWitness(h: Heap, lines: seq<string>)
    requires Run(h, lines).NotInAnySegment?
    ensures exists k :: 0 <= k < |lines| && IsClassifiedRecord(lines[k], Run(h, lines).name)
    decreases |lines|
  {
    var step := Step(h, lines[0], Following(lines));
    if step.Next? {
      RunNext(h, lines);
      var rest := lines[step.consumed..];
      UnplacedHasWitness(step.heap, rest);
      var k :| 0 <= k < |rest| && IsClassifiedRecord(rest[k], Run(step.heap, rest).name);
      assert lines[step.consumed + k] == rest[k];
    } else {
      assert IsClassifiedRecord(lines[0], step.name);
    }
  }

  /** A line that passes the method pattern but whose address, name or
      level cannot be read throws inside the loop: the loop stops there and
      the table built so far is returned, whatever follows. */
  lemma RunStopsAtMalformedRecord(h: Heap, line: string, rest: seq<string>)
    requires !IsHeaderLine(line) && IsMethodLine(line) && ParseMethodRecord(line).None?
    ensures Run(h, [line] + rest) == Stopped(h)
  {
  }

  /** A header whose name, bounds line or bounds cannot be read stops the
      loop the same way. */
  lemma RunStopsAtBadHeader(h: Heap, line: string, rest: seq<string>)
    requires IsHeaderLine(line) && HeaderRule(h, line, Following([line] + rest)).None?
    ensures Run(h, [line] + rest) == Stopped(h)
  {
  }

  /** A line that neither rule acts on, such as `total_blobs=...` or
      `compilation: enabled`. */
  predicate Skippable(line: string) {
    !IsHeaderLine(line) && !IsMethodLine(line)
  }

  /** Lines that are neither headers nor method records are skipped. */
  lemma RunSkips(h: Heap, line: string, rest: seq<string>)
    requires Skippable(line)
    ensures Run(h, [line] + rest) == Run(h, rest)
  {
    assert ([line] + rest)[1..] == rest;
  }

  /** Any run of such lines is skipped as a whole. */
  lemma {:induction false} RunSkipsAll(h: Heap, lines: seq<string>, rest: seq<string>)
    requires forall i :: 0 <= i < |lines| ==> Skippable(lines[i])
    ensures Run(h, lines + rest) == Run(h, rest)
    decreases |lines|
  {
    if |lines| > 0 {
      var tail := lines[1..] + rest;
      assert Run(h, lines + rest) == Run(h, tail) by {
        assert lines + rest == [lines[0]] + tail;
        RunSkips(h, lines[0], tail);
      }
      RunSkipsAll(h, lines[1..], rest);
    } else {
      assert lines + rest == rest;
    }
  }
}

=== FILE: placement.dfy ===
/** The placement checks the test methods apply to the table `runVM`
    returns. `reportError` throws, so each check stops at the first
    violation it meets and reports only that one. */
module Placement {
  import opened Options
  import opened JavaStrings
  import opened CodeHeap

  /** The prefix that marks the methods the compiler directives send to the hot segment. */
  const JAVA_PREFIX: string := "java"

  predicate IsJava(name: string) {
    StartsWith(name, JAVA_PREFIX)
  }

  /** The first index at or after `from` whose name is (`java` true) or is
      not (`java` false) a `java` name. */
  function FindFrom(xs: seq<string>, java: bool, from: nat): (r: Option<nat>)
    requires from <= |xs|
    ensures r.Some? ==> from <= r.value < |xs| && IsJava(xs[r.value]) == java
    ensures forall k :: from <= k < |xs| && (r.None? || k < r.value) ==> IsJava(xs[k]) != java
    decreases |xs| - from
  {
    if from == |xs| then None
    else if IsJava(xs[from]) == java then Some(from)
    else FindFrom(xs, java, from + 1)
  }

  /** `name` is the first entry of `xs` that is (or is not) a `java` name. */
  predicate IsFirst(xs: seq<string>, java: bool, name: string) {
    exists k :: 0 <= k < |xs| && xs[k] == name && IsJava(name) == java
      && forall j :: 0 <= j < k ==> IsJava(xs[j]) != java
  }

  /** No entry of `xs` is (or is not) a `java` name. */
  predicate NoneWith(xs: seq<string>, java: bool) {
    forall k :: 0 <= k < |xs| ==> IsJava(xs[k]) != java
  }

  /** The first entry that is (or is not) a `java` name, if any. */
  function First(xs: seq<string>, java: bool): (r: Option<string>)
    ensures r.None? <==> NoneWith(xs, java)
    ensures r.Some? ==> IsFirst(xs, java, r.value)
  {
    match FindFrom(xs, java, 0)
    case None => None
    case Some(k) => Some(xs[k])
  }

  /** Everything a test can fail with: one constructor per `reportError`
      message, plus the `AssertionError` of `runVM`. */
  datatype Violation =
    | HotEmpty                // checkJavaMethodsBelongsToHotSegmentOnly
    | WrongHot(name: string)
    | WrongC1(name: string)
    | WrongC2(name: string)
    | HotNotEmpty             // testEmptyHotSegment
    | HotStillEmpty           // testSmallHotSegment
    | NoSpillover
    | Unclassified(name: string)  // runVM

  /** The text of the error each violation raises. */
  function Message(v: Violation): string {
    match v
    case HotEmpty => "hot segment is empty!"
    case WrongHot(name) => "hot segment contains wrong method: " + name
    case WrongC1(name) => "c1 segment contains wrong name: " + name
    case WrongC2(name) => "c2 segment contains wrong name: " + name
    case HotNotEmpty => "hot segment must be empty!"
    case HotStillEmpty => "hot segment should not be empty"
    case NoSpillover => "remaining methods must go to non-profiled segment"
    case Unclassified(name) => "nmethod does not belong to any CodeHeap segment: " + name
  }

  /** The placement invariant the hot-segment tests expect: some method is
      in the hot list, all of them are `java` names, and no `java` name is
      in either c1 or c2 list. The non-method list is not constrained. */
  predicate JavaOnlyInHot(h: Heap) {
    && |h.hotMethods| > 0
    && NoneWith(h.hotMethods, false)
    && NoneWith(h.c1Methods, true)
    && NoneWith(h.c2Methods, true)
  }

  /** `checkJavaMethodsBelongsToHotSegmentOnly`: passes exactly when the
      invariant holds; otherwise reports the first violation in the order
      the source checks (empty hot list, hot list, c1 list, c2 list). */
  function CheckJavaMethodsInHotOnly(h: Heap): (r: Option<Violation>)
    ensures r.None? <==> JavaOnlyInHot(h)
    ensures r == Some(HotEmpty) <==> |h.hotMethods| == 0
    ensures r.Some? && r.value.WrongHot? ==> IsFirst(h.hotMethods, false, r.value.name)
    ensures r.Some? && r.value.WrongC1? ==>
              |h.hotMethods| > 0 && NoneWith(h.hotMethods, false) && IsFirst(h.c1Methods, true, r.value.name)
    ensures r.Some? && r.value.WrongC2? ==>
              && |h.hotMethods| > 0 && NoneWith(h.hotMethods, false) && NoneWith(h.c1Methods, true)
              && IsFirst(h.c2Methods, true, r.value.name)
    ensures r.Some? ==> r.value.HotEmpty? || r.value.WrongHot? || r.value.WrongC1? || r.value.WrongC2?
  {
    if |h.hotMethods| == 0 then Some(HotEmpty)
    else
      match First(h.hotMethods, false)
      case Some(name) => Some(WrongHot(name))
      case None =>
        match First(h.c1Methods, true)
        case Some(name) => Some(WrongC1(name))
        case None =>
          match First(h.c2Methods, true)
          case Some(name) => Some(WrongC2(name))
          case None => None
  }

  /** The check looks at the hot, c1 and c2 lists only. */
  lemma CheckIgnoresNonMethodList(h: Heap, names: seq<string>)
    ensures CheckJavaMethodsInHotOnly(h.(nonMethodMethods := names)) == CheckJavaMethodsInHotOnly(h)
  {
  }

  /** The check in `testEmptyHotSegment`: the hot list must be empty. */
  function CheckEmptyHot(h: Heap): (r: Option<Violation>)
    ensures r.None? <==> |h.hotMethods| == 0
    ensures r.Some? ==> r.value == HotNotEmpty
  {
    if |h.hotMethods| != 0 then Some(HotNotEmpty) else None
  }

  /** The checks in `testSmallHotSegment`: the hot list is not empty and,
      the hot segment being full, some `java` name spilled into the list
      `c2SegmentMethods` (fed by the non-profiled bounds). */
  function CheckSmallHot(h: Heap): (r: Option<Violation>)
    ensures r.None? <==> |h.hotMethods| > 0 && !NoneWith(h.c2Methods, true)
    ensures r == Some(HotStillEmpty) <==> |h.hotMethods| == 0
    ensures r == Some(NoSpillover) <==> |h.hotMethods| > 0 && NoneWith(h.c2Methods, true)
  {
    if |h.hotMethods| == 0 then Some(HotStillEmpty)
    else if First(h.c2Methods, true).Some? then None
    else Some(NoSpillover)
  }

  /** The two checks on the hot list pull in opposite directions: no table
      passes both the empty-hot check and the small-hot check, nor both the
      empty-hot check and the java-only check. */
  lemma ChecksExclusive(h: Heap)
    ensures !(CheckEmptyHot(h).None? && CheckSmallHot(h).None?)
    ensures !(CheckEmptyHot(h).None? && CheckJavaMethodsInHotOnly(h).None?)
  {
  }

  /** A table that passes the java-only check never passes the small-hot
      check: the spillover the latter requires is a violation of the former. */
  lemma SpilloverViolatesJavaOnly(h: Heap)
    requires CheckSmallHot(h).None?
    ensures CheckJavaMethodsInHotOnly(h).Some?
  {
  }
}
